=== FILE: README.md ===
# vulkan-base: object lifecycle, model transform and frame bookkeeping in Dafny

This project models three parts of the vulkan-base renderer.

- **Scene objects and their components.** A `BaseObject` owns an ordered
  vector of shared components. `Destroy` tears each component down once, in
  vector order, clears the vector and only then sets the object's
  `isDestroyed` flag. The destructor macros call `Destroy` only when the flag
  is clear. A `GameObject` is built with a `RenderableComponent` followed by a
  `TransformComponent`, and exposes the renderable through a weak handle.
  `RenderableComponent::Destroy` and `GPU_MESH::destroy` release device
  buffers and images and null or zero their fields.
- **`TransformComponent::ProduceModelTransform`.** This is modelled over a 4x4
  matrix of an abstract scalar type. Multiplication, degree-to-radian
  conversion and the axis rotations are supplied as function values, so the
  model says which entries are written and which inputs reach the result. It
  says nothing about the numbers.
- **Frame and resize bookkeeping of `Vk_Demo` and `Copy_To_Swapchain`.** This
  covers:
  - the order in which `run_frame` records its commands;
  - the output-image barrier;
  - the copy dispatch's group count in uint32_t arithmetic;
  - the time update;
  - the vsync-triggered release and restore of resolution-dependent resources;
  - the growth and rewrite of the per-swapchain-image descriptor sets.

Vulkan handles are opaque natural numbers, with 0 standing for
`VK_NULL_HANDLE`. A `Handle` stands for the identity of one created object,
not for the 64-bit value a vkCreate* call returns: the model draws every new
handle from one counter that never repeats, whereas a driver may hand out
the value of a destroyed object again, or the same value for objects of
different types. The freshness facts below (`Demo.RecreateFresh` and the
"above every handle" clauses of `Demo.Restore`, `Demo.ReleaseAndRestore`,
`Demo.FinishFrame` and `Demo.RunFrameFixed`) are therefore statements about
object identity, not about handle values. Recording a command or calling a device function appends an
entry to a log. A descriptor set's contents are a map from binding number to
the (kind, sampler, view, layout) last written there. Shared ownership is a
heap of component cells: a cell lives while the object's vector or some other
strong owner holds its id, and a weak handle has expired once its cell is
gone.

Modules:

| module | file | covers |
|---|---|---|
| `Vk` | vk.dfy | handles, uint32_t, layouts, access masks, stages, the command and call log |
| `Matrix` | matrix.dfy | 4x4 matrices over an abstract scalar |
| `Mesh` | mesh.dfy | `Transform`, `TAATransform`, `GPU_MESH` |
| `TransformComponent` | transform_component.dfy | `ProduceModelTransform` |
| `Components` | components.dfy | `BaseComponent`, `RenderableComponent`, `TransformComponent` |
| `Objects` | objects.dfy | `BaseObject`, `GameObject` |
| `CopyToSwapchain` | copy_to_swapchain.dfy | `Copy_To_Swapchain`'s descriptor sets and teardown |
| `Demo` | demo.dfy | `Vk_Demo::run_frame` and the release and restore of resolution-dependent resources |

`RenderableComponent::Draw` checks nothing and records an indexed draw of
`index_count` indices even when that is 0, and `Components.DrawAddsOneDraw`
states that behaviour.

One observation about the barrier is recorded here rather than as a finding,
because the ray-tracing code it depends on is not part of this model. On the
ray-traced path the output-image barrier before the copy declares its source
as a shader write in GENERAL layout (src/demo.cpp:406-418). However, the UI
render pass runs on both paths, and its final layout is SHADER_READ_ONLY
(src/demo.cpp:141-142, 384-395). `Demo.OutputBarrier` states that the
barrier's source matches what the UI pass leaves exactly when ray tracing is
off.

## Model

| member | source | states |
|---|---|---|
| Matrix.Set | src/TransformComponent.cpp:20-22 | writing one entry of the matrix changes that entry and leaves the other fifteen as they were |
| Matrix.SetOverwrite | src/TransformComponent.cpp:20-22 | a second write to the same entry makes the first one irrelevant |
| Matrix.Identity | src/TransformComponent.cpp:11 | the identity matrix has one on the diagonal and zero everywhere else |
| Mesh.DefaultTransform | src/Mesh.h:8-10 | a default transform has zero position, zero pitch, yaw and roll, and unit scale |
| Mesh.Assign | src/Mesh.h:19-28 | assignment copies every field: the assigned-to transform equals the source, whatever it held before |
| Mesh.CopyOf | src/Mesh.h:14-17 | the copy constructor (a default transform, then assignment) yields a transform equal to its source |
| Mesh.DefaultGpuMesh | src/Mesh.h:37-42 | a default GPU mesh has zero vertex and index counts |
| Mesh.DestroyGpuMesh | src/Mesh.cpp:3-9 | destroy releases the vertex buffer and then the index buffer, and leaves both counts zero |
| Mesh.DestroyGpuMeshTwice | src/Mesh.cpp:3-9 | destroying twice leaves the same zero counts; because the model keeps buffer handles as they were after `Vk_Buffer::destroy` (whose body is not part of this model and may null them), the second destroy names the same two buffers again |
| TransformComponent.ProduceModelTransform | src/TransformComponent.cpp:9-25 | as written: entry [0][3] ends as position.z, and every other entry is identity scaled by scale.x/y/z then rotated about X by pitch, Y by yaw and Z by roll, each angle in radians |
| TransformComponent.PositionXYIgnored | src/TransformComponent.cpp:20-22 | position.x and position.y have no influence on the matrix |
| TransformComponent.TranslationAsWritten | src/TransformComponent.cpp:16-22 | the translation column read back is (position.z, then what the rotations left in [1][3] and [2][3]) |
| TransformComponent.AsWrittenLosesTranslation | src/TransformComponent.cpp:20-22 | whenever position.x differs from position.z, the matrix's translation column is not the position |
| TransformComponent.ProduceModelTransformFixed | src/TransformComponent.cpp:9-25 | corrected: the translation column is exactly the position, and the rotation-scale block is the same as in the code as written |
| TransformComponent.FixedSeparatesPositions | src/TransformComponent.cpp:20-22 | corrected: two transforms that differ only in position give equal matrices if and only if the positions are equal |
| Components.NewComponent | src/BaseComponent.h:25-27 | every component starts with its destroyed flag clear |
| Components.NewRenderable | src/RenderableComponent.cpp:4-9 | a new renderable holds a default GPU mesh with zero counts and no texture, so it owns only the empty mesh's null buffers |
| Components.NewTransform | src/TransformComponent.cpp:3-7 | a new transform component is not destroyed and holds the default transform |
| Components.DestroyRenderable | src/RenderableComponent.cpp:11-24 | afterwards mesh and texture are null and nothing is owned; the calls release exactly what was owned, the mesh's two buffers first and the texture image last |
| Components.DestroyRenderableIdempotent | src/RenderableComponent.cpp:14-23 | a second Destroy releases nothing and changes nothing |
| Components.TearDown | src/BaseComponent.h:17 | the virtual Destroy: a transform component is left unchanged with no calls (base no-op); a renderable ends up owning nothing; the flag is never touched |
| Components.TearDownIdempotent | src/RenderableComponent.cpp:11-24 | tearing a component down twice equals tearing it down once, and the second time makes no calls |
| Components.Destructor | src/BaseComponent.h:3-23 | deleting a component never changes it; while the flag is clear, every macro destructor body in its chain calls BaseComponent::Destroy, two for a TransformComponent and one for a RenderableComponent, and none is called when the flag is set |
| Components.IterateKeepsFlag | src/BaseComponent.h:26-27 | any number of tear-downs leaves the component's flag and kind as they were |
| Components.FlagNeverSet | src/BaseComponent.h:19-27 | a component built by either constructor keeps its flag clear through any number of tear-downs, so every destructor body in its chain makes its call |
| Components.Draw | src/RenderableComponent.cpp:26-33 | given a mesh, appends exactly three commands: the vertex buffer at binding 0 with offset 0, then the index buffer with 32-bit indices, then one indexed draw of index_count indices and one instance |
| Components.DrawAddsOneDraw | src/RenderableComponent.cpp:30-32 | each Draw adds exactly one draw to the command buffer, and for an empty mesh that draw has zero indices |
| Components.BindTextureToPipeline | src/RenderableComponent.cpp:35-50 | given a texture, pushes exactly one descriptor write: graphics bind point, set 1, binding 0, one sampled image, the texture view in SHADER_READ_ONLY, no sampler |
| Components.BindTextureRecordsNoDraw | src/RenderableComponent.cpp:35-50 | binding the texture adds no draw to the command buffer |
| Objects.DestroyEach | src/BaseObject.cpp:12-15 | every listed component gets one Destroy call, in vector order, with the owner's flag value at that time; each component ends torn down and no other cell changes |
| Objects.ObjectDestroy | src/BaseObject.cpp:5-20 | an empty vector changes nothing and leaves the flag alone; otherwise one call per component in order while the flag keeps its old value, the vector ends empty, the flag ends set, and components with no other strong owner die |
| Objects.ObjectDestroyIdempotent | src/BaseObject.cpp:7-10 | a second Destroy makes no component call and changes nothing |
| Objects.ObjectDestroyOwns | src/BaseObject.cpp:17 | after Destroy, every live component still has a strong owner and ids stay fresh |
| Objects.DestructorStep | src/BaseObject.h:7-15 | the object destructor does nothing on a destroyed object and runs Destroy exactly once on one that is not |
| Objects.DropComponents | src/BaseObject.h:21 | destroying the vector kills exactly the components with no other strong owner and leaves the survivors unchanged |
| Objects.DeleteGameObject | src/GameObject.h:18 | deleting a game object tears each component down exactly once, in order and with the flag clear, if it was not destroyed, and makes no call if it was; its components with no other strong owner die, the survivors held elsewhere are left torn down (or untouched if the object was already destroyed), other cells are unchanged, and the id counter is kept |
| Objects.NewGameObject | src/GameObject.cpp:5-15 | construction appends a fresh renderable and then a fresh transform, the weak handles capture exactly those two, and the flag is clear |
| Objects.GetRenderable | src/GameObject.h:9-16 | the lock yields the renderable the weak handle refers to, and only while that component is alive; while the object still holds it in its vector the handle cannot have expired; once it is gone the result is null |
| Objects.NewGameObjectShape | src/GameObject.cpp:8-14 | a new game object is owned consistently and holds exactly two components, a renderable then a transform; GetRenderable yields the first |
| Objects.GetRenderableAfterDestroy | src/GameObject.h:11-15 | after Destroy, GetRenderable is null unless another owner keeps the renderable alive; in that case it yields a renderable that owns nothing |
| Objects.GameObjectLifecycle | src/GameObject.cpp:5-15 | construction then Destroy: the renderable and then the transform get their calls with the flag clear; the flag ends set, GetRenderable is null, and deleting the object calls nothing more |
| CopyToSwapchain.AllocateSets | src/demo.cpp:589-616 | n sets with the fresh handles next, next + 1, ... are appended in that order, each with only the point sampler at binding 0; existing sets and their contents are untouched |
| CopyToSwapchain.WriteImageBindings | src/demo.cpp:618-643 | for each image i, set i reads the output view at binding 1 (SHADER_READ_ONLY) and writes swapchain view i at binding 2 (GENERAL); binding 0 and sets beyond the image count are untouched |
| CopyToSwapchain.UpdateResolutionDependentDescriptors | src/demo.cpp:588-644 | the set count becomes max(old count, image count); old sets are kept as a prefix with their binding 0; only new sets get the sampler; set i then reads the output view and writes swapchain view i |
| CopyToSwapchain.Destroy | src/demo.cpp:580-586 | destroys the set layout, pipeline layout, pipeline and point sampler in that order and empties the set list |
| Demo.GroupCount | src/demo.cpp:399-403 | unless the uint32_t sum wraps, the group count covers the extent, and one group fewer would not |
| Demo.GroupCountIsLeast | src/demo.cpp:402-403 | without wrap-around, g groups of 32 cover the extent if and only if g is at least the group count |
| Demo.GroupCountWraps | src/demo.cpp:402-403 | for every extent: one within 31 of 2^32 wraps the sum and gets zero groups, and apart from extent 0 these are the only extents that get none |
| Demo.OutputBarrier | src/demo.cpp:405-420 | the destination is always a compute-shader read in SHADER_READ_ONLY; the source is the UI pass's result if and only if ray tracing is off; with ray tracing it is a ray-tracing shader write in GENERAL |
| Demo.Micros | src/demo.cpp:359 | the elapsed microseconds are the nanoseconds divided by 1000, truncated toward zero for either sign |
| Demo.AdvanceTime | src/demo.cpp:357-362 | with animate set, the simulated time grows by the elapsed whole microseconds in seconds; otherwise it stays; the frame time is taken either way |
| Demo.AdvanceTimeBounded | src/demo.cpp:357-362 | with a clock that does not go backwards, the simulated time never decreases and never gains more than the real elapsed time |
| Demo.ResourceUpdates | src/demo.cpp:365-370 | the scene is updated with the simulated time, and the ray-tracing instance is updated if and only if ray tracing is supported |
| Demo.ApplyUi | src/demo.cpp:328-335 | vsync and animate follow their checkboxes; raytracing follows its checkbox only when supported |
| Demo.StartFrame | src/demo.cpp:357-375 | before recording, the overlay's flags are applied and the log gains exactly the scene update with the advanced simulated time, the ray-tracing instance update when supported, and the frame begin; the resolution-dependent resources are untouched and the swapchain is neither released nor restored |
| Demo.FrameCommands | src/demo.cpp:377-438 | eleven commands, all recorded, in this order: the scene; the UI pass (begin on the UI render pass and framebuffer over the surface, draw the overlay, end); the barrier on the output image; the acquired swapchain image from UNDEFINED to GENERAL (no source access, shader write); the copy's push constants (surface width and height on the copy layout), that image's descriptor set, the copy pipeline and the dispatch of GroupCount(width) by GroupCount(height) by 1 groups; the image from GENERAL to PRESENT_SRC (shader write to memory read) |
| Demo.FrameOrder | src/demo.cpp:374-440 | scene, UI pass, output barrier, swapchain from UNDEFINED to GENERAL, copy set-up, copy dispatch, swapchain from GENERAL to PRESENT_SRC, end of frame: each of the eight phases occurs and none goes backwards, so the dispatch comes after the set-up and before the image is handed to presentation |
| Demo.CopyUsesAcquiredImage | src/demo.cpp:430-431 | in a ready state the bound copy set reads the current output view and writes the acquired swapchain image's view |
| Demo.DispatchCoversSurface | src/demo.cpp:399-434 | the frame records exactly one dispatch, the tenth command; unless the sums wrap, it covers the whole surface with no spare row or column of groups, with depth 1 |
| Demo.RecordFrame | src/demo.cpp:377-440 | recording appends the frame's commands and the end of frame, changes nothing else, and neither releases nor restores the swapchain |
| Demo.DestroyUiFramebuffer | src/demo.cpp:249-252 | the UI framebuffer is destroyed and its handle becomes null |
| Demo.Release | src/demo.cpp:215-221 | wait idle, then destroy the UI framebuffer, the raster framebuffer and the output image, then release the swapchain once; afterwards the resources are not Ready, which recording a frame requires, so no frame can be recorded until a restore |
| Demo.RecreateCalls | src/demo.cpp:224-231 | the swapchain is restored first with the current vsync; the output image is created at the new size and moved to GENERAL if and only if ray tracing is on; both framebuffers are created on its view; the ray-tracing descriptor is updated if and only if supported |
| Demo.Recreate | src/demo.cpp:224-228 | the new swapchain and surface are taken over, and the output image and both framebuffers get the next four handles, above every handle the demo itself created (output image and view, framebuffers, UI render pass, the copy pass's layouts, pipeline, sampler and sets); the calls are those RecreateCalls lists |
| Demo.RecreateFresh | src/demo.cpp:224-228 | the new output image, its view and both new framebuffers are four distinct handles, none equal to the old output image or view, an old framebuffer, the UI render pass, a copy-pass handle or a copy descriptor set |
| Demo.RestoreThenDescriptors | src/demo.cpp:223-233 | calls that restore the swapchain first and never again, followed by descriptor updates, count one restore and no release |
| Demo.RestoreLog | src/demo.cpp:223-233 | the restore's calls start with the swapchain restore, restore once, never release, and create the output image and both framebuffers on the fresh handles |
| Demo.RestoreResources | src/demo.cpp:223-233 | after the restore a frame can be recorded: fresh output image and framebuffers at the new size, every swapchain image's copy set pointing at it; one restore and no release |
| Demo.Restore | src/demo.cpp:223-235 | one restore and no release; afterwards a frame can be recorded on a new output image and framebuffers, with handles above every one the demo held, created at the new surface size; the flags and simulated time are unchanged and the frame time is reset |
| Demo.ReleaseAndRestore | src/demo.cpp:442-445 | one release, then one restore with the current vsync setting; afterwards a frame can be recorded on a new output image and framebuffers with handles above every one the demo held |
| Demo.FinishFrame | src/demo.cpp:442-445 | if vsync differs from the captured value, exactly one release and then one restore with the new setting, onto a new output image and framebuffers; otherwise nothing changes |
| Demo.Recorded | src/demo.cpp:355-440 | a frame up to vk_end_frame takes the overlay's flags, keeps the resources, ends with the end-of-frame entry and never releases or restores the swapchain |
| Demo.RunFrame | src/demo.cpp:355-446 | as written: the flags follow the overlay, but the frame always ends at vk_end_frame and never restores the swapchain, even when the vsync checkbox changed |
| Demo.RunFrameFixed | src/demo.cpp:355-446 | corrected: after the recorded frame, the swapchain is released once and then restored once with the new setting, onto a new output image and framebuffers, if and only if the vsync checkbox changed |

## Left out

- Vulkan object creation and teardown (`Vk_Demo::initialize`, `shutdown`, `setup_imgui`, `release_imgui`, `Copy_To_Swapchain::create`): these are foreign calls with no bookkeeping beyond handle creation.
- The overlay's widget layout in `do_imgui` (window placement, F10 toggle, context menu): it is UI code; only the three checkboxes' effect on the flags is modelled.
- Texture loading through stb_image and OBJ model loading: these are file I/O.
- The bodies of `draw_rasterized_image` and `draw_raytraced_image`: each is recorded as one scene entry; the acceleration-structure build and the ray trace are extension calls.
- The numeric values of rotations, `radians`, `look_at_transform` and `srgb_encode`: the scalar type is abstract, and matrix.h is not part of this model.
- Demo.AdvanceTime: `sim_time` is a double in the code and a real here, so floating-point rounding of the accumulated time is not modelled.
- The clock: `Clock::now()` becomes a nanosecond count passed in as a parameter.
- `vk_begin_frame` and `vk_end_frame` (image acquisition, submission, presentation, fences) are single log entries; the acquired image index is a parameter.
- `vk_release_resolution_dependent_resources` and `vk_restore_resolution_dependent_resources` live in vk.cpp, which is not part of this model. They are single log entries, and the recreated swapchain and surface size are parameters.
- `Vk_Buffer::destroy`, `Vk_Image::destroy`, `raster.destroy_framebuffer`, `raster.create_framebuffer` and `rt.update_output_image_descriptor` are log entries. Their sources are not part of this model, so the handles they may reset are left as they were.
- The stage masks that `vk_record_image_layout_transition` chooses: only the access masks and layouts passed to it are recorded.
- `VK_CHECK` failures and descriptor-pool exhaustion (the pool allows 64 sets): every device call is taken to succeed.
- `vkDeviceWaitIdle` and GPU asynchrony: the wait is a log entry, and execution order on the device is not modelled.
- shared_ptr reference counts: abstracted as "a cell lives while some strong owner holds its id"; other owners are a set of ids.
- Objects.DestroyEach: the device calls each component's Destroy makes (its buffer and image releases) are not appended to the object's list of Destroy calls; `Components.TearDown` and `Components.DestroyRenderable` state them per component.
- `Objects.GetRenderable` returns the component's id rather than a shared_ptr, so the extra strong reference the returned pointer holds is not modelled.
- `TAATransform` is modelled only as its two-matrix record, since it has no operations.
- src/demo.h describes a later revision of `Vk_Demo` (GLFW, TAA helpers, several pipelines) with no bodies among the files modelled; it is not modelled. The model follows the bodies in src/demo.cpp.
- Components.Draw: requires a mesh. The code dereferences `mMesh` without a check, and `Destroy` sets it to null, so a Draw after Destroy dereferences null; the model leaves that undefined case out rather than giving it a result.
- Components.BindTextureToPipeline: requires a texture. The code dereferences `mTexture` without a check, and no constructor in the modelled code sets it (its initialiser is commented out in src/RenderableComponent.cpp:6), so on every renderable built here the call dereferences null; the model leaves that undefined case out.
- Header mismatches are not modelled: RenderableComponent.h declares `destroy()` and omits `mTexture`, and GameObject.h omits the transform handle that GameObject.cpp assigns. The model follows the .cpp bodies.

## Findings

| source | as written | input that shows it | evidently intended | confidence | as-written member | corrected member |
|---|---|---|---|---|---|---|
| src/TransformComponent.cpp:20-22 | all three position components are stored into entry [0][3], so only position.z survives, in the wrong slot, and entries [1][3] and [2][3] keep what the rotations left | any transform with position (1, 0, 2): the translation column read back starts with 2, not 1 | store position.x, .y, .z into [0][3], [1][3], [2][3] | high; not executed | TransformComponent.AsWrittenLosesTranslation | TransformComponent.FixedSeparatesPositions |
| src/demo.cpp:372-375, 442 | `old_vsync` is captured after `do_imgui` has already written the checkbox into `vsync`, and nothing in between changes `vsync`, so `vsync != old_vsync` never holds and the swapchain is never rebuilt for a new vsync setting | vsync on, user unticks the checkbox in a frame: the flag becomes false, yet the frame ends at vk_end_frame with no release or restore | capture `old_vsync` before `do_imgui`, so that a toggle causes one release followed by one restore | medium (the platform main loop is not part of this model and might handle the toggle elsewhere); not executed | Demo.RunFrame | Demo.RunFrameFixed |

=== FILE: components.dfy ===
/** src/BaseComponent.h, src/RenderableComponent.cpp and the constructor of
    src/TransformComponent.cpp: the two component kinds an object owns.

    Every component carries the private `isDestroyed` flag of
    BaseComponent. No member of any component ever sets it, which the
    operations below preserve and `FlagNeverSet` collects. */
module Components {
  import opened Vk
  import opened Mesh

  /** Vk_Image as far as the component uses it: the image and its view. */
  datatype Texture = Texture(image: Handle, view: Handle)

  /** RenderableComponent's owned resources: `mMesh` and `mTexture`, each a
      unique_ptr that may be null. */
  datatype Renderable = Renderable(mesh: Option<GpuMesh>, texture: Option<Texture>)

  datatype Body<S> = RenderableBody(renderable: Renderable) | TransformBody(transform: Transform<S>)

  datatype Component<S> = Component(destroyed: bool, body: Body<S>)

  datatype Kind = RenderableKind | TransformKind

  function KindOf<S>(c: Component<S>): Kind
  {
    match c.body
    case RenderableBody(_) => RenderableKind
    case TransformBody(_) => TransformKind
  }

  /** The protected BaseComponent() constructor: the flag starts clear. */
  function NewComponent<S>(body: Body<S>): (c: Component<S>)
    ensures !c.destroyed && c.body == body
  {
    Component(false, body)
  }

  /** RenderableComponent(): a fresh empty GPU_MESH and no texture, so the
      only resources it names are the empty mesh's null buffers. */
  function NewRenderable(): (r: Renderable)
    ensures r.mesh == Some(DefaultGpuMesh()) && Empty(r.mesh.value)
    ensures r.texture == None
    ensures Owned(r) == {Null}
  {
    Renderable(Some(DefaultGpuMesh()), None)
  }

  /** TransformComponent(): a component holding a default Transform. */
  function NewTransform<S>(num: Scalars<S>): (c: Component<S>)
    ensures !c.destroyed && KindOf(c) == TransformKind
    ensures c.body.transform == DefaultTransform(num)
  {
    NewComponent(TransformBody(DefaultTransform(num)))
  }

  /** Device resources a renderable still owns. */
  function Owned(r: Renderable): set<Handle>
  {
    (if r.mesh.Some? then {r.mesh.value.vertexBuffer, r.mesh.value.indexBuffer} else {})
    + (if r.texture.Some? then {r.texture.value.image} else {})
  }

  /** Handles named by the destroy calls of a log. */
  function Released(log: seq<Call>): set<Handle>
  {
    set i | 0 <= i < |log| && (log[i].DestroyBuffer? || log[i].DestroyImage?)
          :: if log[i].DestroyBuffer? then log[i].buffer else log[i].image
  }

  /** RenderableComponent::Destroy: BaseComponent::Destroy (which does
      nothing), then, if there is a mesh, GPU_MESH::destroy and a null mesh,
      then, if there is a texture, Vk_Image::destroy and a null texture.
      Afterwards the component owns nothing, and the calls made release
      exactly what it owned, mesh buffers before texture. */
  function DestroyRenderable(r: Renderable): (res: (Renderable, seq<Call>))
    ensures res.0.mesh.None? && res.0.texture.None?
    ensures Owned(res.0) == {}
    ensures Released(res.1) == Owned(r)
    ensures |res.1| == (if r.mesh.Some? then 2 else 0) + (if r.texture.Some? then 1 else 0)
    ensures r.mesh.Some? ==> res.1[..2] == DestroyGpuMesh(r.mesh.value).1
    ensures r.texture.Some? ==> res.1[|res.1| - 1] == DestroyImage(r.texture.value.image)
  {
    var meshCalls := if r.mesh.Some? then DestroyGpuMesh(r.mesh.value).1 else [];
    var textureCalls := if r.texture.Some? then [DestroyImage(r.texture.value.image)] else [];
    var log := meshCalls + textureCalls;
    assert r.mesh.Some? ==> log[0] == DestroyBuffer(r.mesh.value.vertexBuffer) && log[1] == DestroyBuffer(r.mesh.value.indexBuffer);
    assert r.texture.Some? ==> log[|log| - 1] == DestroyImage(r.texture.value.image);
    (Renderable(None, None), log)
  }

  /** A second RenderableComponent::Destroy releases nothing further and
      changes nothing. */
  lemma DestroyRenderableIdempotent(r: Renderable)
    ensures DestroyRenderable(DestroyRenderable(r).0).1 == []
    ensures DestroyRenderable(DestroyRenderable(r).0).0 == DestroyRenderable(r).0
  {
  }

  /** The virtual `Destroy` of a component: the renderable's override, or
      BaseComponent::Destroy (a no-op) for a TransformComponent, which does
      not override it. The component flag is left alone in both cases. */
  function TearDown<S>(c: Component<S>): (res: (Component<S>, seq<Call>))
    ensures res.0.destroyed == c.destroyed
    ensures KindOf(res.0) == KindOf(c)
    ensures c.body.TransformBody? ==> res == (c, [])
    ensures c.body.RenderableBody? ==> Owned(res.0.body.renderable) == {}
  {
    match c.body
    case TransformBody(_) => (c, [])
    case RenderableBody(r) =>
      var (r', log) := DestroyRenderable(r);
      (c.(body := RenderableBody(r')), log)
  }

  /** Tearing a component down twice is the same as tearing it down once,
      and the second time makes no device calls. */
  lemma {:induction false} TearDownIdempotent<S>(c: Component<S>)
    ensures TearDown(TearDown(c).0).0 == TearDown(c).0
    ensures TearDown(TearDown(c).0).1 == []
  {
    match c.body
    case TransformBody(_) =>
    case RenderableBody(r) => DestroyRenderableIdempotent(r);
  }

  /** How many DEFAULT_DESTRUCTOR_COMPONENT bodies run when a component is
      deleted: a TransformComponent has its own macro destructor and then
      the inherited ~BaseComponent; a RenderableComponent, which does not
      use the macro, has only ~BaseComponent. */
  function DestructorBodies<S>(c: Component<S>): nat
  {
    match c.body
    case TransformBody(_) => 2
    case RenderableBody(_) => 1
  }

  /** Deleting a component: each macro destructor body in the chain returns
      at once if the flag is set, and otherwise calls the statically
      qualified Destroy, which for both kinds is BaseComponent::Destroy (a
      TransformComponent does not override it, and ~BaseComponent names its
      own). That call does nothing, so the component is never changed and
      nothing sets the flag between the bodies. The number is how many of
      those calls are made. */
  function Destructor<S>(c: Component<S>): (res: (Component<S>, nat))
    ensures res.0 == c
    ensures res.1 == 0 <==> c.destroyed
    ensures !c.destroyed && KindOf(c) == TransformKind ==> res.1 == 2
    ensures !c.destroyed && KindOf(c) == RenderableKind ==> res.1 == 1
  {
    if c.destroyed then (c, 0) else (c, DestructorBodies(c))
  }

  /** A component that only ever went through the constructors and
      TearDown still has its flag clear, so every body of its destructor
      chain makes the statically qualified call. */
  lemma FlagNeverSet<S>(num: Scalars<S>, steps: nat, renderable: bool)
    ensures !Iterate(if renderable then NewComponent(RenderableBody(NewRenderable())) else NewTransform(num), steps).destroyed
    ensures Destructor(Iterate(if renderable then NewComponent(RenderableBody(NewRenderable())) else NewTransform(num), steps)).1
            == if renderable then 1 else 2
  {
    IterateKeepsFlag(if renderable then NewComponent(RenderableBody(NewRenderable())) else NewTransform(num), steps);
  }

  /** `steps` successive tear-downs. */
  function Iterate<S>(c: Component<S>, steps: nat): Component<S>
    decreases steps
  {
    if steps == 0 then c else Iterate(TearDown(c).0, steps - 1)
  }

  lemma {:induction false} IterateKeepsFlag<S>(c: Component<S>, steps: nat)
    ensures Iterate(c, steps).destroyed == c.destroyed
    ensures KindOf(Iterate(c, steps)) == KindOf(c)
    decreases steps
  {
    if steps > 0 {
      IterateKeepsFlag(TearDown(c).0, steps - 1);
    }
  }

  /** RenderableComponent::Draw. The mesh pointer is dereferenced without a
      check, so the caller must supply a mesh. Three commands are recorded:
      the vertex buffer bound at binding 0 with offset 0, the index buffer
      bound with 32-bit indices, and one indexed draw of `index_count`
      indices and one instance. `index_count` is not checked: an empty mesh
      still gets a draw of zero indices. */
  function Draw(r: Renderable, log: seq<Command>): (log': seq<Command>)
    requires r.mesh.Some?
    ensures |log'| == |log| + 3 && log'[..|log|] == log
    ensures log'[|log|] == BindVertexBuffers(0, [r.mesh.value.vertexBuffer], [0])
    ensures log'[|log| + 1] == BindIndexBuffer(r.mesh.value.indexBuffer, 0, Uint32)
    ensures log'[|log| + 2] == DrawIndexed(r.mesh.value.indexCount, 1, 0, 0, 0)
  {
    var mesh := r.mesh.value;
    log + [BindVertexBuffers(0, [mesh.vertexBuffer], [0]),
           BindIndexBuffer(mesh.indexBuffer, 0, Uint32),
           DrawIndexed(mesh.indexCount, 1, 0, 0, 0)]
  }

  /** An indexed draw call. */
  predicate IsDraw(c: Command) { c.DrawIndexed? }

  /** Every Draw adds exactly one draw call, whether or not the mesh is
      empty, and the draw is recorded after both buffers are bound. */
  lemma {:induction false} DrawAddsOneDraw(r: Renderable, log: seq<Command>)
    requires r.mesh.Some?
    ensures Count(Draw(r, log), IsDraw) == Count(log, IsDraw) + 1
    ensures Empty(r.mesh.value) ==> Draw(r, log)[|log| + 2].indexCount == 0
  {
    var cmds := [BindVertexBuffers(0, [r.mesh.value.vertexBuffer], [0]),
                 BindIndexBuffer(r.mesh.value.indexBuffer, 0, Uint32),
                 DrawIndexed(r.mesh.value.indexCount, 1, 0, 0, 0)];
    assert Draw(r, log) == log + cmds;
    CountAppend(log, cmds, IsDraw);
    CountSingle(cmds, 2, IsDraw);
  }

  /** RenderableComponent::BindTextureToPipeline. The texture pointer is
      dereferenced without a check, so the caller must supply a texture.
      Exactly one descriptor write is pushed, to set 1 of `layout` on the
      graphics bind point: binding 0, one sampled image, the texture's view
      in SHADER_READ_ONLY layout, no sampler. */
  function BindTextureToPipeline(r: Renderable, layout: Handle, log: seq<Command>): (log': seq<Command>)
    requires r.texture.Some?
    ensures |log'| == |log| + 1 && log'[..|log|] == log
    ensures log'[|log|].PushDescriptorSet? && log'[|log|].bindPoint == Graphics
    ensures log'[|log|].layout == layout && log'[|log|].setIndex == 1
    ensures |log'[|log|].writes| == 1
    ensures log'[|log|].writes[0]
         == DescriptorWrite(Null, 0, 1, SampledImage, ImageInfo(Null, r.texture.value.view, ShaderReadOnly))
  {
    var info := ImageInfo(Null, r.texture.value.view, ShaderReadOnly);
    var write := DescriptorWrite(Null, 0, 1, SampledImage, info);
    log + [PushDescriptorSet(Graphics, layout, 1, [write])]
  }

  /** Binding the texture records no draw. */
  lemma {:induction false} BindTextureRecordsNoDraw(r: Renderable, layout: Handle, log: seq<Command>)
    requires r.texture.Some?
    ensures Count(BindTextureToPipeline(r, layout, log), IsDraw) == Count(log, IsDraw)
  {
    var push := BindTextureToPipeline(r, layout, log)[|log|];
    assert BindTextureToPipeline(r, layout, log) == log + [push];
    CountAppend(log, [push], IsDraw);
    CountZero([push], IsDraw);
  }
}

=== FILE: copy_to_swapchain.dfy ===
/** Copy_To_Swapchain in src/demo.cpp: the compute pass that copies the
    output image into the acquired swapchain image, and its per-swapchain-
    image descriptor sets.

    Each descriptor set's contents are a map from binding number to what
    was last written there. Binding 0 is the point sampler, binding 1 the
    output image (sampled, SHADER_READ_ONLY), binding 2 swapchain image i
    (storage, GENERAL). */
module CopyToSwapchain {
  import opened Vk

  datatype State = State(
    setLayout: Handle,
    pipelineLayout: Handle,
    pipeline: Handle,
    pointSampler: Handle,
    sets: seq<Handle>,
    contents: map<Handle, map<nat, Binding>>)

  /** The descriptor sets are distinct, known, non-null, and below the next
      newSet handle. */
  predicate SetsWf(c: State, next: Handle)
  {
    && (forall i, j :: 0 <= i < j < |c.sets| ==> c.sets[i] != c.sets[j])
    && (forall i :: 0 <= i < |c.sets| ==> c.sets[i] in c.contents && Null < c.sets[i] < next)
    && (forall h :: h in c.contents ==> h < next)
  }

  /** Moving the handle counter forward keeps the sets well-formed. */
  lemma SetsWfGrow(c: State, next: Handle, next': Handle)
    requires SetsWf(c, next) && next <= next'
    ensures SetsWf(c, next')
  {
  }

  function Lookup(m: map<nat, Binding>, b: nat): Option<Binding>
  {
    if b in m then Some(m[b]) else None
  }

  function SamplerBinding(sampler: Handle): Binding
  {
    Binding(Sampler, ImageInfo(sampler, Null, Undefined))
  }

  function OutputBinding(view: Handle): Binding
  {
    Binding(SampledImage, ImageInfo(Null, view, ShaderReadOnly))
  }

  function SwapchainBinding(view: Handle): Binding
  {
    Binding(StorageImage, ImageInfo(Null, view, General))
  }

  /** Set i reads `outputView` and writes swapchain view `views[i]`. */
  predicate Points(c: State, i: nat, outputView: Handle, views: seq<Handle>)
    requires i < |c.sets| && c.sets[i] in c.contents && i < |views|
  {
    && Lookup(c.contents[c.sets[i]], 1) == Some(OutputBinding(outputView))
    && Lookup(c.contents[c.sets[i]], 2) == Some(SwapchainBinding(views[i]))
  }

  /** Calls that only allocate or write descriptor sets. */
  predicate DescriptorCalls(calls: seq<Call>)
  {
    forall i :: 0 <= i < |calls| ==> calls[i].AllocateDescriptorSet? || calls[i].WriteDescriptors?
  }

  /** The allocation loop of update_resolution_dependent_descriptors:
      `n` new sets get the fresh handles next, next + 1, ..., are appended
      in that order, and each has the point sampler written at binding 0.
      Existing sets and their contents are untouched. */
  method AllocateSets(c: State, next: Handle, n: nat) returns (c': State, next': Handle, calls: seq<Call>)
    requires Null < next && SetsWf(c, next)
    ensures SetsWf(c', next') && next' == next + n
    ensures c' == c.(sets := c'.sets, contents := c'.contents)
    ensures |c'.sets| == |c.sets| + n
    ensures forall k :: 0 <= k < |c.sets| ==> c'.sets[k] == c.sets[k]
    ensures forall k :: |c.sets| <= k < |c'.sets| ==> c'.sets[k] == next + (k - |c.sets|)
    ensures forall h :: h in c'.contents <==> h in c.contents || next <= h < next'
    ensures forall h :: h in c.contents ==> c'.contents[h] == c.contents[h]
    ensures forall h :: next <= h < next' ==> c'.contents[h] == map[0 := SamplerBinding(c.pointSampler)]
    ensures DescriptorCalls(calls)
  {
    var added: seq<Handle> := [];
    var contents := c.contents;
    calls := [];
    var i := 0;
    while i < n
      invariant 0 <= i <= n
      invariant |added| == i
      invariant forall k :: 0 <= k < i ==> added[k] == next + k
      invariant forall h :: h in contents <==> h in c.contents || next <= h < next + i
      invariant forall h :: h in c.contents ==> contents[h] == c.contents[h]
      invariant forall h :: next <= h < next + i ==> contents[h] == map[0 := SamplerBinding(c.pointSampler)]
      invariant DescriptorCalls(calls)
    {
      var newSet := next + i;
      added := added + [newSet];
      contents := contents[newSet := map[0 := SamplerBinding(c.pointSampler)]];
      calls := calls + [AllocateDescriptorSet(newSet),
                        WriteDescriptors([DescriptorWrite(newSet, 0, 1, Sampler, ImageInfo(c.pointSampler, Null, Undefined))])];
      i := i + 1;
    }
    next' := next + n;
    c' := c.(sets := c.sets + added, contents := contents);
  }

  /** The write loop of update_resolution_dependent_descriptors: for every
      swapchain image i, set i gets the output view at binding 1 and
      swapchain view i at binding 2; nothing else changes. */
  method WriteImageBindings(c: State, next: Handle, count: nat, views: seq<Handle>, outputView: Handle)
    returns (c': State, calls: seq<Call>)
    requires count <= |views| && count <= |c.sets|
    requires SetsWf(c, next)
    ensures SetsWf(c', next)
    ensures c' == c.(contents := c'.contents)
    ensures forall k :: 0 <= k < |c.sets| ==> Lookup(c'.contents[c.sets[k]], 0) == Lookup(c.contents[c.sets[k]], 0)
    ensures forall k :: 0 <= k < count ==> Points(c', k, outputView, views)
    ensures forall k :: count <= k < |c.sets| ==> c'.contents[c.sets[k]] == c.contents[c.sets[k]]
    ensures DescriptorCalls(calls)
  {
    var contents := c.contents;
    calls := [];
    var j := 0;
    while j < count
      invariant 0 <= j <= count
      invariant contents.Keys == c.contents.Keys
      invariant forall k :: 0 <= k < |c.sets| ==> Lookup(contents[c.sets[k]], 0) == Lookup(c.contents[c.sets[k]], 0)
      invariant forall k :: 0 <= k < j ==> Points(c.(contents := contents), k, outputView, views)
      invariant forall k :: j <= k < |c.sets| ==> contents[c.sets[k]] == c.contents[c.sets[k]]
      invariant DescriptorCalls(calls)
    {
      var s := c.sets[j];
      ghost var before := contents;
      contents := contents[s := contents[s][1 := OutputBinding(outputView)][2 := SwapchainBinding(views[j])]];
      forall k | 0 <= k < j
        ensures Points(c.(contents := contents), k, outputView, views)
      {
        assert Points(c.(contents := before), k, outputView, views);
        assert c.sets[k] != s;
      }
      calls := calls + [WriteDescriptors([
        DescriptorWrite(s, 1, 1, SampledImage, ImageInfo(Null, outputView, ShaderReadOnly)),
        DescriptorWrite(s, 2, 1, StorageImage, ImageInfo(Null, views[j], General))])];
      j := j + 1;
    }
    c' := c.(contents := contents);
  }

  /** Copy_To_Swapchain::update_resolution_dependent_descriptors.

      If there are fewer sets than swapchain images, the missing ones are
      allocated (fresh handles from `next`), appended, and given the point
      sampler at binding 0; existing sets are kept as a prefix and their
      binding 0 is not touched. Then for every swapchain image i, set i gets
      the output view at binding 1 and swapchain view i at binding 2. Sets
      beyond the image count keep their contents. */
  method UpdateResolutionDependentDescriptors(
    c: State, next: Handle, images: seq<Handle>, views: seq<Handle>, outputView: Handle)
    returns (c': State, next': Handle, calls: seq<Call>)
    requires |views| >= |images|
    requires Null < next && SetsWf(c, next)
    ensures SetsWf(c', next') && next <= next'
    ensures c' == c.(sets := c'.sets, contents := c'.contents)
    ensures |c'.sets| == if |c.sets| < |images| then |images| else |c.sets|
    ensures c'.sets[..|c.sets|] == c.sets
    ensures forall i :: |c.sets| <= i < |c'.sets| ==> next <= c'.sets[i]
    ensures forall i :: 0 <= i < |c'.sets| ==>
              Lookup(c'.contents[c'.sets[i]], 0)
              == if i < |c.sets| then Lookup(c.contents[c.sets[i]], 0) else Some(SamplerBinding(c.pointSampler))
    ensures forall i :: 0 <= i < |images| ==> Points(c', i, outputView, views)
    ensures forall i :: |images| <= i < |c.sets| ==> c'.contents[c.sets[i]] == c.contents[c.sets[i]]
    ensures DescriptorCalls(calls)
  {
    var grown := c;
    var allocCalls: seq<Call> := [];
    next' := next;
    if |c.sets| < |images| {
      grown, next', allocCalls := AllocateSets(c, next, |images| - |c.sets|);
    }
    assert forall k :: 0 <= k < |c.sets| ==> grown.sets[k] == c.sets[k];
    var writeCalls;
    c', writeCalls := WriteImageBindings(grown, next', |images|, views, outputView);
    calls := allocCalls + writeCalls;
  }

  /** Copy_To_Swapchain::destroy: the set layout, pipeline layout, pipeline
      and point sampler are destroyed in that order and the set list is
      emptied. The sets themselves are not freed (they go back to the
      descriptor pool only when the pool goes), and the destroyed handles are
      not nulled. */
  function Destroy(c: State): (r: (State, seq<Call>))
    ensures r.0.sets == []
    ensures r.0 == c.(sets := [])
    ensures r.1 == [DestroySetLayout(c.setLayout), DestroyPipelineLayout(c.pipelineLayout),
                    DestroyPipeline(c.pipeline), DestroySampler(c.pointSampler)]
    ensures forall next: Handle :: SetsWf(c, next) ==> SetsWf(r.0, next)
  {
    (c.(sets := []),
     [DestroySetLayout(c.setLayout), DestroyPipelineLayout(c.pipelineLayout),
      DestroyPipeline(c.pipeline), DestroySampler(c.pointSampler)])
  }
}

=== FILE: demo.dfy ===
/** Vk_Demo in src/demo.cpp: one frame of the demo (time update, overlay,
    command recording, the copy into the swapchain image) and the release
    and restore of everything that depends on the surface size.

    The state keeps the flags the overlay edits, the simulated time, the
    resolution-dependent resources and the device-call log. Clock readings,
    the overlay's checkbox values, the acquired image index and the swapchain
    the platform layer recreates are parameters. Fresh handles come from the
    counter `next`; a handle is an object's identity, not the value a driver
    returns, which may repeat after a destroy. */
module Demo {
  import opened Vk
  import CopyToSwapchain

  /** Work-group size of the copy shader, in both directions. */
  const GroupSize: nat := 32

  /** `(extent + group_size - 1) / group_size` in uint32_t arithmetic. As
      long as the sum does not wrap, the result is the ceiling of
      extent / 32: enough groups to cover every pixel, and one group fewer
      would leave some uncovered. */
  function GroupCount(extent: u32): (g: u32)
    ensures extent + GroupSize - 1 < U32Limit ==>
              GroupSize * g >= extent && GroupSize * (g as int - 1) < extent
  {
    Wrap32(extent + GroupSize - 1) / GroupSize
  }

  /** Without wrap-around the group count is the least g covering the
      extent: g groups suffice exactly when g is at least the count. */
  lemma GroupCountIsLeast(extent: u32, g: nat)
    requires extent + GroupSize - 1 < U32Limit
    ensures GroupSize * g >= extent <==> GroupCount(extent) <= g
  {
    var c: int := GroupCount(extent);
    if GroupSize * g >= extent {
      assert GroupSize * (c - 1) < GroupSize * g;
    } else {
      assert GroupSize * g < GroupSize * c;
    }
  }

  /** The uint32_t sum wraps for extents within 31 of 2^32: such an extent
      gets no groups at all, and these are the only non-zero extents that
      get none. */
  lemma GroupCountWraps(extent: u32)
    ensures U32Limit - 31 <= extent ==> GroupCount(extent) == 0
    ensures GroupCount(extent) == 0 <==> extent == 0 || U32Limit - 31 <= extent
  {
    var sum := extent + GroupSize - 1;
    if U32Limit <= sum {
      assert Wrap32(sum) == sum - U32Limit;
    } else {
      assert Wrap32(sum) == sum;
    }
  }

  /** What the UI render pass leaves in the output image: SHADER_READ_ONLY
      (its final layout), written as a color attachment. */
  function UiPassResult(): ImageState
  {
    ImageState(ShaderReadOnly, {ColorAttachmentWrite}, ColorAttachmentOutput)
  }

  /** What the copy shader needs: SHADER_READ_ONLY, read by the compute stage. */
  function CopyInput(): ImageState
  {
    ImageState(ShaderReadOnly, {ShaderRead}, ComputeShader)
  }

  /** The output-image barrier before the copy. Its destination is always
      the copy shader's input; its source is the UI pass's result exactly
      when the scene was rasterised. On the ray-traced path the source is a
      shader write in GENERAL layout from the ray-tracing stage, although the
      UI pass runs on both paths. */
  function OutputBarrier(raytracing: bool): (b: Barrier)
    ensures TargetOf(b) == CopyInput()
    ensures SourceOf(b) == UiPassResult() <==> !raytracing
    ensures raytracing ==> SourceOf(b) == ImageState(General, {ShaderWrite}, RayTracing)
  {
    Barrier(
      if raytracing then RayTracing else ColorAttachmentOutput,
      ComputeShader,
      if raytracing then {ShaderWrite} else {ColorAttachmentWrite},
      {ShaderRead},
      if raytracing then General else ShaderReadOnly,
      ShaderReadOnly)
  }

  /** Vk_Image: an image and its view. */
  datatype Image = Image(handle: Handle, view: Handle)

  /** The swapchain's images and their views. */
  datatype Swapchain = Swapchain(images: seq<Handle>, views: seq<Handle>)

  /** The values the overlay's checkboxes hold when do_imgui returns. */
  datatype UiInput = UiInput(vsync: bool, animate: bool, raytracing: bool)

  datatype Flags = Flags(vsync: bool, animate: bool, raytracing: bool, raytracingSupported: bool)

  /** Everything that depends on the surface size, with the handles it is
      built from. */
  datatype Resources = Resources(
    surface: Extent,
    swapchain: Swapchain,
    uiRenderPass: Handle,
    uiFramebuffer: Handle,
    rasterFramebuffer: Handle,
    outputImage: Image,
    copy: CopyToSwapchain.State,
    next: Handle)

  datatype Demo = Demo(
    flags: Flags,
    simTime: real,
    /** Clock reading of the previous frame, in nanoseconds. */
    lastFrameTime: int,
    res: Resources,
    log: seq<Call>)

  /** Every swapchain image has a view and a copy descriptor set, the sets
      are well formed, and every handle the demo itself created (output
      image and view, framebuffers, UI render pass, the copy pass's layouts,
      pipeline, sampler and sets) is below the next fresh one. The
      swapchain's images and views come from the platform layer and are not
      counted. */
  predicate Wf(r: Resources)
  {
    && |r.swapchain.views| == |r.swapchain.images|
    && Null < r.next
    && CopyToSwapchain.SetsWf(r.copy, r.next)
    && |r.swapchain.images| <= |r.copy.sets|
    && Below(r, r.next)
  }

  /** The handles the demo itself created, other than the copy sets, are
      all below `n`. */
  predicate Below(r: Resources, n: Handle)
  {
    && r.outputImage.handle < n && r.outputImage.view < n
    && r.uiFramebuffer < n && r.rasterFramebuffer < n
    && r.uiRenderPass < n
    && r.copy.setLayout < n && r.copy.pipelineLayout < n
    && r.copy.pipeline < n && r.copy.pointSampler < n
  }

  /** Rewriting the copy sets and moving the counter forward keeps the
      bounds. */
  lemma BelowAfterUpdate(r: Resources, c: CopyToSwapchain.State, n: Handle)
    requires Below(r, r.next) && r.next <= n
    requires c == r.copy.(sets := c.sets, contents := c.contents)
    ensures Below(r.(copy := c, next := n), n)
  {
  }

  /** A frame can be recorded: the UI framebuffer exists, and the copy set of
      every swapchain image reads the current output view and writes that
      image's view. */
  predicate Ready(r: Resources)
  {
    && Wf(r)
    && r.uiFramebuffer != Null
    && forall i :: 0 <= i < |r.swapchain.images| ==>
         CopyToSwapchain.Points(r.copy, i, r.outputImage.view, r.swapchain.views)
  }

  predicate IsRelease(c: Call) { c.ReleaseSwapchain? }

  predicate IsRestore(c: Call) { c.RestoreSwapchain? }

  /** No entry of `t` releases or restores the swapchain. */
  predicate KeepsSwapchain(t: seq<Call>)
  {
    forall k :: 0 <= k < |t| ==> !IsRelease(t[k]) && !IsRestore(t[k])
  }

  lemma KeepsSwapchainCounts(t: seq<Call>)
    requires KeepsSwapchain(t)
    ensures Count(t, IsRelease) == 0 && Count(t, IsRestore) == 0
  {
    CountZero(t, IsRelease);
    CountZero(t, IsRestore);
  }

  lemma KeepsSwapchainAppend(a: seq<Call>, b: seq<Call>)
    requires KeepsSwapchain(a) && KeepsSwapchain(b)
    ensures KeepsSwapchain(a + b)
  {
    assert forall k :: |a| <= k < |a + b| ==> (a + b)[k] == b[k - |a|];
  }

  /** The swapchain is released exactly once and restored exactly once, the
      release first. */
  predicate ReleaseThenRestore(t: seq<Call>)
  {
    && Count(t, IsRelease) == 1
    && Count(t, IsRestore) == 1
    && forall i, j :: 0 <= i < |t| && 0 <= j < |t| && IsRelease(t[i]) && IsRestore(t[j]) ==> i < j
  }

  /** A part that releases once and never restores, followed by a part that
      restores once and never releases, releases before it restores. */
  lemma {:induction false} ReleaseThenRestoreAppend(a: seq<Call>, b: seq<Call>)
    requires Count(a, IsRelease) == 1 && Count(a, IsRestore) == 0
    requires Count(b, IsRelease) == 0 && Count(b, IsRestore) == 1
    ensures ReleaseThenRestore(a + b)
  {
    var t := a + b;
    CountAppend(a, b, IsRelease);
    CountAppend(a, b, IsRestore);
    CountZero(a, IsRestore);
    CountZero(b, IsRelease);
    forall i, j | 0 <= i < |t| && 0 <= j < |t|
      ensures IsRelease(t[i]) && IsRestore(t[j]) ==> i < j
    {
      if i >= |a| {
        assert t[i] == b[i - |a|];
      }
      if j < |a| {
        assert t[j] == a[j];
      }
    }
  }

  /** duration_cast<microseconds> of a nanosecond count, which truncates
      toward zero. */
  function Micros(ns: int): (us: int)
    ensures 0 <= ns ==> 0 <= 1000 * us <= ns < 1000 * us + 1000
    ensures ns < 0 ==> 1000 * us - 1000 < ns <= 1000 * us <= 0
  {
    if ns >= 0 then ns / 1000 else -((-ns) / 1000)
  }

  /** The time update of run_frame: with `animate` set the simulated time
      grows by the whole microseconds elapsed, in seconds; the frame time is
      taken in every case. */
  function AdvanceTime(d: Demo, now: int): (d': Demo)
    ensures d'.lastFrameTime == now
    ensures !d.flags.animate ==> d'.simTime == d.simTime
    ensures d.flags.animate ==> d'.simTime == d.simTime + (Micros(now - d.lastFrameTime) as real) / 1000000.0
    ensures d' == d.(simTime := d'.simTime, lastFrameTime := now)
  {
    var simTime := if d.flags.animate then d.simTime + (Micros(now - d.lastFrameTime) as real) / 1000000.0 else d.simTime;
    d.(simTime := simTime, lastFrameTime := now)
  }

  /** With a clock that does not run backwards, the simulated time never
      decreases and never runs ahead of the clock. */
  lemma AdvanceTimeBounded(d: Demo, now: int)
    requires d.lastFrameTime <= now
    ensures d.simTime <= AdvanceTime(d, now).simTime
    ensures AdvanceTime(d, now).simTime - d.simTime <= ((now - d.lastFrameTime) as real) / 1000000000.0
  {
    var us := Micros(now - d.lastFrameTime);
    assert 1000 * us <= now - d.lastFrameTime;
    assert (us as real) / 1000000.0 == ((1000 * us) as real) / 1000000000.0;
  }

  /** The resource update of run_frame: the scene matrices are recomputed
      from the simulated time, and the ray-tracing instance is updated when
      ray tracing is supported. */
  function ResourceUpdates(simTime: real, raytracingSupported: bool): (t: seq<Call>)
    ensures |t| > 0 && t[0] == UpdateScene(simTime)
    ensures UpdateRtInstance in t <==> raytracingSupported
    ensures KeepsSwapchain(t)
  {
    [UpdateScene(simTime)] + (if raytracingSupported then [UpdateRtInstance] else [])
  }

  /** do_imgui: the checkboxes write the flags directly. The ray-tracing
      checkbox is disabled when ray tracing is unsupported, so the flag only
      follows it when it is supported. */
  function ApplyUi(f: Flags, ui: UiInput): (f': Flags)
    ensures f'.vsync == ui.vsync && f'.animate == ui.animate
    ensures f.raytracingSupported ==> f'.raytracing == ui.raytracing
    ensures !f.raytracingSupported ==> f'.raytracing == f.raytracing
    ensures f'.raytracingSupported == f.raytracingSupported
  {
    f.(vsync := ui.vsync, animate := ui.animate,
       raytracing := if f.raytracingSupported then ui.raytracing else f.raytracing)
  }

  /** run_frame up to and including vk_begin_frame: time, resources, the
      overlay, then the frame is begun. The time update uses the `animate`
      flag from before the overlay runs. The resources are untouched. */
  function StartFrame(d: Demo, now: int, ui: UiInput): (d': Demo)
    ensures d'.flags == ApplyUi(d.flags, ui)
    ensures d'.lastFrameTime == now && d'.simTime == AdvanceTime(d, now).simTime
    ensures d'.res == d.res
    ensures |d.log| < |d'.log| && d'.log[..|d.log|] == d.log && d'.log[|d'.log| - 1] == BeginFrame
    ensures d'.log[|d.log|..] == ResourceUpdates(d'.simTime, d.flags.raytracingSupported) + [BeginFrame]
    ensures KeepsSwapchain(d'.log[|d.log|..])
  {
    var d1 := AdvanceTime(d, now);
    var added := ResourceUpdates(d1.simTime, d.flags.raytracingSupported) + [BeginFrame];
    KeepsSwapchainAppend(ResourceUpdates(d1.simTime, d.flags.raytracingSupported), [BeginFrame]);
    var d' := d1.(flags := ApplyUi(d.flags, ui), log := d.log + added);
    assert d'.log[|d.log|..] == added;
    d'
  }

  /** The commands run_frame records between vk_begin_frame and
      vk_end_frame for swapchain image `imageIndex`: the scene, the UI pass,
      the output-image barrier, the swapchain image's transition to GENERAL,
      the copy dispatch (push constants, descriptor set, pipeline,
      dispatch) and the swapchain image's transition to PRESENT_SRC. */
  function FrameCommands(f: Flags, r: Resources, imageIndex: nat): (t: seq<Call>)
    requires Ready(r) && imageIndex < |r.swapchain.images|
    ensures |t| == 11
    ensures forall k :: 0 <= k < |t| ==> t[k].Record?
    ensures t[0] == Record(DrawScene(f.raytracing))
    ensures t[1] == Record(BeginRenderPass(r.uiRenderPass, r.uiFramebuffer, r.surface))
    ensures t[2] == Record(DrawUi) && t[3] == Record(EndRenderPass)
    ensures t[4] == Record(PipelineBarrier(r.outputImage.handle, OutputBarrier(f.raytracing)))
    ensures t[5] == Record(LayoutTransition(r.swapchain.images[imageIndex], {}, {ShaderWrite}, Undefined, General))
    ensures t[6] == Record(PushConstants(r.copy.pipelineLayout, r.surface.width, r.surface.height))
    ensures t[7] == Record(BindDescriptorSet(Compute, r.copy.pipelineLayout, r.copy.sets[imageIndex]))
    ensures t[8] == Record(BindPipeline(Compute, r.copy.pipeline))
    ensures t[9] == Record(Dispatch(GroupCount(r.surface.width), GroupCount(r.surface.height), 1))
    ensures t[10] == Record(LayoutTransition(r.swapchain.images[imageIndex], {ShaderWrite}, {MemoryRead}, General, PresentSrc))
    ensures forall k :: 0 <= k < |t| && t[k].cmd.LayoutTransition? ==> t[k].cmd.image == r.swapchain.images[imageIndex]
    ensures forall k :: 0 <= k < |t| && t[k].cmd.BindDescriptorSet? ==> t[k].cmd.descriptorSet == r.copy.sets[imageIndex]
    ensures forall k :: 0 <= k < |t| && t[k].cmd.PipelineBarrier? ==>
              t[k].cmd.image == r.outputImage.handle && t[k].cmd.barrier == OutputBarrier(f.raytracing)
  {
    var image := r.swapchain.images[imageIndex];
    var layout := r.copy.pipelineLayout;
    [Record(DrawScene(f.raytracing)),
     Record(BeginRenderPass(r.uiRenderPass, r.uiFramebuffer, r.surface)),
     Record(DrawUi),
     Record(EndRenderPass),
     Record(PipelineBarrier(r.outputImage.handle, OutputBarrier(f.raytracing))),
     Record(LayoutTransition(image, {}, {ShaderWrite}, Undefined, General)),
     Record(PushConstants(layout, r.surface.width, r.surface.height)),
     Record(BindDescriptorSet(Compute, layout, r.copy.sets[imageIndex])),
     Record(BindPipeline(Compute, r.copy.pipeline)),
     Record(Dispatch(GroupCount(r.surface.width), GroupCount(r.surface.height), 1)),
     Record(LayoutTransition(image, {ShaderWrite}, {MemoryRead}, General, PresentSrc))]
  }

  /** The phase of a frame a call belongs to: 1 scene, 2 UI pass, 3 output
      barrier, 4 swapchain image from UNDEFINED to GENERAL, 5 copy set-up
      (push constants, descriptor set, pipeline), 6 copy dispatch,
      7 swapchain image from GENERAL to PRESENT_SRC, 8 end of frame; 0 for
      anything else, including a transition between any other layouts. */
  function Phase(c: Call): nat
  {
    match c
    case EndFrame => 8
    case Record(cmd) =>
      (match cmd
       case DrawScene(_) => 1
       case BeginRenderPass(_, _, _) => 2
       case DrawUi => 2
       case EndRenderPass => 2
       case PipelineBarrier(_, _) => 3
       case LayoutTransition(_, _, _, oldLayout, newLayout) =>
         if oldLayout == Undefined && newLayout == General then 4
         else if oldLayout == General && newLayout == PresentSrc then 7
         else 0
       case PushConstants(_, _, _) => 5
       case BindDescriptorSet(_, _, _) => 5
       case BindPipeline(_, _) => 5
       case Dispatch(_, _, _) => 6
       case _ => 0)
    case _ => 0
  }

  /** Phases never go backwards along the log. */
  predicate InPhaseOrder(log: seq<Call>)
  {
    forall k :: 0 < k < |log| ==> Phase(log[k - 1]) <= Phase(log[k])
  }

  /** Some entry of the log is in phase `p`. */
  predicate HasPhase(log: seq<Call>, p: nat)
  {
    exists k :: 0 <= k < |log| && Phase(log[k]) == p
  }

  /** The phase of each entry of the recorded frame followed by
      vk_end_frame. */
  function FramePhases(): seq<nat>
  {
    [1, 2, 2, 2, 3, 4, 5, 5, 5, 6, 7, 8]
  }

  /** Any log whose entries have the phases of a frame is in phase order
      and goes through all eight phases. */
  lemma FramePhasesOrdered(log: seq<Call>)
    requires |log| == |FramePhases()|
    requires forall k :: 0 <= k < |log| ==> Phase(log[k]) == FramePhases()[k]
    ensures InPhaseOrder(log)
    ensures forall p :: 1 <= p <= 8 ==> HasPhase(log, p)
  {
    forall p | 1 <= p <= 8
      ensures HasPhase(log, p)
    {
      var k := if p <= 2 then p - 1 else if p <= 5 then p + 1 else p + 3;
      assert Phase(log[k]) == p;
    }
  }

  /** The phase of each recorded command, read off its entry. */
  lemma FrameCommandPhases(f: Flags, r: Resources, imageIndex: nat)
    requires Ready(r) && imageIndex < |r.swapchain.images|
    ensures var t := FrameCommands(f, r, imageIndex);
            && Phase(t[0]) == 1 && Phase(t[1]) == 2 && Phase(t[2]) == 2 && Phase(t[3]) == 2
            && Phase(t[4]) == 3 && Phase(t[5]) == 4 && Phase(t[6]) == 5 && Phase(t[7]) == 5
            && Phase(t[8]) == 5 && Phase(t[9]) == 6 && Phase(t[10]) == 7
  {
    CommandPhases(f, r, r.swapchain.images[imageIndex], r.copy.sets[imageIndex]);
  }

  /** The phase of each kind of command a frame records. */
  lemma CommandPhases(f: Flags, r: Resources, image: Handle, descriptorSet: Handle)
    ensures Phase(Record(DrawScene(f.raytracing))) == 1
    ensures Phase(Record(BeginRenderPass(r.uiRenderPass, r.uiFramebuffer, r.surface))) == 2
    ensures Phase(Record(DrawUi)) == 2 && Phase(Record(EndRenderPass)) == 2
    ensures Phase(Record(PipelineBarrier(r.outputImage.handle, OutputBarrier(f.raytracing)))) == 3
    ensures Phase(Record(LayoutTransition(image, {}, {ShaderWrite}, Undefined, General))) == 4
    ensures Phase(Record(PushConstants(r.copy.pipelineLayout, r.surface.width, r.surface.height))) == 5
    ensures Phase(Record(BindDescriptorSet(Compute, r.copy.pipelineLayout, descriptorSet))) == 5
    ensures Phase(Record(BindPipeline(Compute, r.copy.pipeline))) == 5
    ensures Phase(Record(Dispatch(GroupCount(r.surface.width), GroupCount(r.surface.height), 1))) == 6
    ensures Phase(Record(LayoutTransition(image, {ShaderWrite}, {MemoryRead}, General, PresentSrc))) == 7
  {
  }

  /** The recorded frame followed by vk_end_frame goes through all eight
      phases, each at least once, in order. */
  lemma FrameOrder(f: Flags, r: Resources, imageIndex: nat)
    requires Ready(r) && imageIndex < |r.swapchain.images|
    ensures InPhaseOrder(FrameCommands(f, r, imageIndex) + [EndFrame])
    ensures forall p :: 1 <= p <= 8 ==> HasPhase(FrameCommands(f, r, imageIndex) + [EndFrame], p)
  {
    var log := FrameCommands(f, r, imageIndex) + [EndFrame];
    FrameCommandPhases(f, r, imageIndex);
    forall k | 0 <= k < |log|
      ensures Phase(log[k]) == FramePhases()[k]
    {
    }
    FramePhasesOrdered(log);
  }

  /** In a ready state the descriptor set the copy binds reads the current
      output view and writes the view of the acquired swapchain image. */
  lemma CopyUsesAcquiredImage(f: Flags, r: Resources, imageIndex: nat, k: nat)
    requires Ready(r) && imageIndex < |r.swapchain.images|
    requires k < |FrameCommands(f, r, imageIndex)| && FrameCommands(f, r, imageIndex)[k].cmd.BindDescriptorSet?
    ensures var s := FrameCommands(f, r, imageIndex)[k].cmd.descriptorSet;
            && s in r.copy.contents
            && CopyToSwapchain.Lookup(r.copy.contents[s], 1) == Some(CopyToSwapchain.OutputBinding(r.outputImage.view))
            && CopyToSwapchain.Lookup(r.copy.contents[s], 2) == Some(CopyToSwapchain.SwapchainBinding(r.swapchain.views[imageIndex]))
  {
    assert CopyToSwapchain.Points(r.copy, imageIndex, r.outputImage.view, r.swapchain.views);
  }

  /** The frame records exactly one dispatch, the tenth command, and unless
      the surface is within 31 pixels of 2^32 in a direction it covers the
      whole surface, with no spare group row or column. */
  lemma DispatchCoversSurface(f: Flags, r: Resources, imageIndex: nat)
    requires Ready(r) && imageIndex < |r.swapchain.images|
    requires r.surface.width + GroupSize - 1 < U32Limit && r.surface.height + GroupSize - 1 < U32Limit
    ensures var t := FrameCommands(f, r, imageIndex);
            && t[9].cmd.Dispatch?
            && (forall k :: 0 <= k < |t| && t[k].cmd.Dispatch? ==> k == 9)
            && GroupSize * t[9].cmd.x >= r.surface.width && GroupSize * (t[9].cmd.x as int - 1) < r.surface.width
            && GroupSize * t[9].cmd.y >= r.surface.height && GroupSize * (t[9].cmd.y as int - 1) < r.surface.height
            && t[9].cmd.z == 1
  {
    var t := FrameCommands(f, r, imageIndex);
    forall k | 0 <= k < |t| && t[k].cmd.Dispatch?
      ensures k == 9
    {
    }
  }

  /** The recording of a frame followed by vk_end_frame. */
  function RecordFrame(d: Demo, imageIndex: nat): (d': Demo)
    requires Ready(d.res) && imageIndex < |d.res.swapchain.images|
    ensures d' == d.(log := d'.log)
    ensures |d'.log| == |d.log| + 12 && d'.log[..|d.log|] == d.log
    ensures d'.log[|d.log|..] == FrameCommands(d.flags, d.res, imageIndex) + [EndFrame]
    ensures KeepsSwapchain(d'.log[|d.log|..])
  {
    var added := FrameCommands(d.flags, d.res, imageIndex) + [EndFrame];
    var d' := d.(log := d.log + added);
    assert d'.log[|d.log|..] == added;
    d'
  }

  /** Vk_Demo::destroy_ui_framebuffer: the framebuffer is destroyed and its
      handle nulled. */
  function DestroyUiFramebuffer(d: Demo): (d': Demo)
    ensures d'.res.uiFramebuffer == Null
    ensures d'.log == d.log + [DestroyFramebuffer(d.res.uiFramebuffer)]
    ensures d' == d.(res := d.res.(uiFramebuffer := Null), log := d'.log)
  {
    d.(res := d.res.(uiFramebuffer := Null), log := d.log + [DestroyFramebuffer(d.res.uiFramebuffer)])
  }

  /** Vk_Demo::release_resolution_dependent_resources: wait for the device,
      destroy the UI framebuffer, the raster framebuffer and the output
      image, then release the swapchain. Only the UI framebuffer handle is
      nulled here; afterwards no frame can be recorded until a restore. */
  function Release(d: Demo): (d': Demo)
    requires Wf(d.res)
    ensures Wf(d'.res) && !Ready(d'.res)
    ensures d'.log == d.log + [DeviceWaitIdle, DestroyFramebuffer(d.res.uiFramebuffer),
                               DestroyRasterFramebuffer(d.res.rasterFramebuffer),
                               DestroyImage(d.res.outputImage.handle), ReleaseSwapchain]
    ensures Count(d'.log[|d.log|..], IsRelease) == 1 && Count(d'.log[|d.log|..], IsRestore) == 0
    ensures d' == d.(res := d.res.(uiFramebuffer := Null), log := d'.log)
  {
    var d1 := DestroyUiFramebuffer(d.(log := d.log + [DeviceWaitIdle]));
    var d' := d1.(log := d1.log + [DestroyRasterFramebuffer(d.res.rasterFramebuffer),
                                   DestroyImage(d.res.outputImage.handle), ReleaseSwapchain]);
    var t := d'.log[|d.log|..];
    assert t == [DeviceWaitIdle, DestroyFramebuffer(d.res.uiFramebuffer),
                 DestroyRasterFramebuffer(d.res.rasterFramebuffer),
                 DestroyImage(d.res.outputImage.handle), ReleaseSwapchain];
    CountSingle(t, 4, IsRelease);
    CountZero(t, IsRestore);
    d'
  }

  /** The calls of restore_resolution_dependent_resources before the copy
      descriptors are updated: the swapchain is restored with the current
      vsync setting; a new output image of the new surface size is created
      (and moved to GENERAL at once when ray tracing is on); the UI and
      raster framebuffers are created on its view; the ray-tracing output
      descriptor is updated when supported. `h` is the first fresh handle. */
  function RecreateCalls(f: Flags, uiRenderPass: Handle, surface: Extent, h: Handle): (t: seq<Call>)
    ensures |t| > 0 && t[0] == RestoreSwapchain(f.vsync)
    ensures forall k :: 0 < k < |t| ==> !IsRelease(t[k]) && !IsRestore(t[k])
    ensures CreateImage(h, h + 1, surface) in t
    ensures TransitionNow(h, {ShaderWrite}, Undefined, General) in t <==> f.raytracing
    ensures CreateFramebuffer(h + 2, uiRenderPass, h + 1, surface) in t
    ensures CreateRasterFramebuffer(h + 3, h + 1) in t
    ensures UpdateRtOutputDescriptor(h + 1) in t <==> f.raytracingSupported
  {
    [RestoreSwapchain(f.vsync), CreateImage(h, h + 1, surface)]
    + (if f.raytracing then [TransitionNow(h, {ShaderWrite}, Undefined, General)] else [])
    + [CreateFramebuffer(h + 2, uiRenderPass, h + 1, surface), CreateRasterFramebuffer(h + 3, h + 1)]
    + (if f.raytracingSupported then [UpdateRtOutputDescriptor(h + 1)] else [])
  }

  /** Calls that restore the swapchain first and then neither restore nor
      release it, followed by descriptor calls, restore it exactly once and
      never release it. */
  lemma RestoreThenDescriptors(recreate: seq<Call>, updates: seq<Call>)
    requires |recreate| > 0 && IsRestore(recreate[0])
    requires forall k :: 0 < k < |recreate| ==> !IsRelease(recreate[k]) && !IsRestore(recreate[k])
    requires CopyToSwapchain.DescriptorCalls(updates)
    ensures Count(recreate + updates, IsRelease) == 0 && Count(recreate + updates, IsRestore) == 1
  {
    var t := recreate + updates;
    forall k | 0 < k < |t| ensures !IsRestore(t[k]) && !IsRelease(t[k]) {
      if k >= |recreate| {
        assert t[k] == updates[k - |recreate|];
      }
    }
    CountSingle(t, 0, IsRestore);
    CountZero(t, IsRelease);
  }

  /** The restore's calls: the swapchain is restored first and exactly
      once, never released, and the new output image and both framebuffers
      are created. */
  lemma RestoreLog(f: Flags, uiRenderPass: Handle, surface: Extent, h: Handle, updates: seq<Call>)
    requires CopyToSwapchain.DescriptorCalls(updates)
    ensures var t := RecreateCalls(f, uiRenderPass, surface, h) + updates;
            && |t| > 0 && t[0] == RestoreSwapchain(f.vsync)
            && Count(t, IsRelease) == 0 && Count(t, IsRestore) == 1
            && CreateImage(h, h + 1, surface) in t
            && CreateFramebuffer(h + 2, uiRenderPass, h + 1, surface) in t
            && CreateRasterFramebuffer(h + 3, h + 1) in t
  {
    var recreate := RecreateCalls(f, uiRenderPass, surface, h);
    RestoreThenDescriptors(recreate, updates);
    assert forall c :: c in recreate ==> c in recreate + updates;
  }

  /** The part of restore_resolution_dependent_resources before the copy
      descriptors: the new swapchain and surface are taken over, and a fresh
      output image (handle `next`, view `next + 1`), UI framebuffer and raster
      framebuffer are created, with the calls RecreateCalls lists. */
  function Recreate(f: Flags, r: Resources, sc: Swapchain, surface: Extent): (res: (Resources, seq<Call>))
    requires Wf(r)
    ensures var r1 := res.0;
            && r1.swapchain == sc && r1.surface == surface && r1.uiRenderPass == r.uiRenderPass
            && r1.copy == r.copy && CopyToSwapchain.SetsWf(r1.copy, r1.next) && r1.next == r.next + 4
    ensures res.0.outputImage == Image(r.next, r.next + 1)
    ensures res.0.uiFramebuffer == r.next + 2 && res.0.rasterFramebuffer == r.next + 3
    ensures res.1 == RecreateCalls(f, r.uiRenderPass, surface, r.next)
    ensures Below(res.0, res.0.next)
  {
    var h := r.next;
    CopyToSwapchain.SetsWfGrow(r.copy, h, h + 4);
    (r.(surface := surface, swapchain := sc, uiFramebuffer := h + 2, rasterFramebuffer := h + 3,
        outputImage := Image(h, h + 1), next := h + 4),
     RecreateCalls(f, r.uiRenderPass, surface, h))
  }

  /** The output image, its view and both framebuffers that Recreate hands
      out are four distinct handles, none of which the resources already
      use: not the old output image or view, not either old framebuffer,
      not the UI render pass, not a handle of the copy pass. */
  lemma RecreateFresh(f: Flags, r: Resources, sc: Swapchain, surface: Extent)
    requires Wf(r)
    ensures var r1 := Recreate(f, r, sc, surface).0;
            var made := [r1.outputImage.handle, r1.outputImage.view, r1.uiFramebuffer, r1.rasterFramebuffer];
            var before := {r.outputImage.handle, r.outputImage.view, r.uiFramebuffer, r.rasterFramebuffer, r.uiRenderPass,
                           r.copy.setLayout, r.copy.pipelineLayout, r.copy.pipeline, r.copy.pointSampler};
            && (forall i, j :: 0 <= i < j < |made| ==> made[i] != made[j])
            && (forall i :: 0 <= i < |made| ==> made[i] !in before && made[i] !in r.copy.sets)
  {
  }

  /** restore_resolution_dependent_resources on the resources: the output
      image and both framebuffers are recreated with fresh handles, then the
      copy descriptors are rewritten for the new swapchain and output view.
      Afterwards a frame can be recorded. */
  method RestoreResources(f: Flags, r: Resources, sc: Swapchain, surface: Extent)
    returns (r': Resources, calls: seq<Call>)
    requires Wf(r) && |sc.views| == |sc.images|
    ensures Ready(r')
    ensures r'.swapchain == sc && r'.surface == surface && r'.uiRenderPass == r.uiRenderPass
    ensures r.next <= r'.outputImage.handle && r.next <= r'.outputImage.view
    ensures r.next <= r'.uiFramebuffer && r.next <= r'.rasterFramebuffer
    ensures |calls| > 0 && calls[0] == RestoreSwapchain(f.vsync)
    ensures Count(calls, IsRelease) == 0 && Count(calls, IsRestore) == 1
    ensures CreateImage(r'.outputImage.handle, r'.outputImage.view, surface) in calls
    ensures CreateFramebuffer(r'.uiFramebuffer, r.uiRenderPass, r'.outputImage.view, surface) in calls
    ensures CreateRasterFramebuffer(r'.rasterFramebuffer, r'.outputImage.view) in calls
  {
    var (r1, recreate) := Recreate(f, r, sc, surface);
    var copy', next', updates := CopyToSwapchain.UpdateResolutionDependentDescriptors(
      r1.copy, r1.next, sc.images, sc.views, r1.outputImage.view);
    BelowAfterUpdate(r1, copy', next');
    r' := r1.(copy := copy', next := next');
    calls := recreate + updates;
    RestoreLog(f, r.uiRenderPass, surface, r.next, updates);
  }

  /** Vk_Demo::restore_resolution_dependent_resources: the resources are
      recreated and the frame time is reset to the clock reading `now`. */
  method Restore(d: Demo, sc: Swapchain, surface: Extent, now: int) returns (d': Demo)
    requires Wf(d.res) && |sc.views| == |sc.images|
    ensures Ready(d'.res)
    ensures d'.flags == d.flags && d'.simTime == d.simTime && d'.lastFrameTime == now
    ensures d'.res.swapchain == sc && d'.res.surface == surface
    ensures |d.log| < |d'.log| && d'.log[..|d.log|] == d.log
    ensures d'.log[|d.log|] == RestoreSwapchain(d.flags.vsync)
    ensures Count(d'.log[|d.log|..], IsRelease) == 0 && Count(d'.log[|d.log|..], IsRestore) == 1
    ensures d.res.next <= d'.res.outputImage.handle && d.res.next <= d'.res.outputImage.view
    ensures d.res.next <= d'.res.uiFramebuffer && d.res.next <= d'.res.rasterFramebuffer
    ensures CreateImage(d'.res.outputImage.handle, d'.res.outputImage.view, surface) in d'.log[|d.log|..]
    ensures CreateFramebuffer(d'.res.uiFramebuffer, d.res.uiRenderPass, d'.res.outputImage.view, surface) in d'.log[|d.log|..]
    ensures CreateRasterFramebuffer(d'.res.rasterFramebuffer, d'.res.outputImage.view) in d'.log[|d.log|..]
  {
    var r', calls := RestoreResources(d.flags, d.res, sc, surface);
    d' := d.(res := r', lastFrameTime := now, log := d.log + calls);
    assert d'.log[|d.log|..] == calls;
  }

  /** release_resolution_dependent_resources followed by
      restore_resolution_dependent_resources: one release, then one restore
      with the current vsync setting, after which a frame can be recorded
      again on a fresh output image and framebuffers. */
  method ReleaseAndRestore(d: Demo, sc: Swapchain, surface: Extent, now: int) returns (d': Demo)
    requires Ready(d.res) && |sc.views| == |sc.images|
    ensures Ready(d'.res)
    ensures d'.flags == d.flags
    ensures |d.log| < |d'.log| && d'.log[..|d.log|] == d.log
    ensures ReleaseThenRestore(d'.log[|d.log|..])
    ensures d'.log[|d.log|] == DeviceWaitIdle
    ensures RestoreSwapchain(d.flags.vsync) in d'.log[|d.log|..]
    ensures d'.res.swapchain == sc && d'.res.surface == surface
    ensures d.res.next <= d'.res.outputImage.handle && d.res.next <= d'.res.outputImage.view
    ensures d.res.next <= d'.res.uiFramebuffer && d.res.next <= d'.res.rasterFramebuffer
  {
    var d1 := Release(d);
    d' := Restore(d1, sc, surface, now);
    var a := d1.log[|d.log|..];
    var b := d'.log[|d1.log|..];
    assert d'.log[|d.log|..] == a + b;
    assert b[0] == RestoreSwapchain(d.flags.vsync);
    ReleaseThenRestoreAppend(a, b);
  }

  /** The end of run_frame: when the vsync setting differs from the value
      captured during the frame, the resolution-dependent resources are
      released and then restored, once each; otherwise nothing happens. */
  method FinishFrame(d: Demo, captured: bool, sc: Swapchain, surface: Extent, now: int) returns (d': Demo)
    requires Ready(d.res) && |sc.views| == |sc.images|
    ensures Ready(d'.res)
    ensures d'.flags == d.flags
    ensures |d.log| <= |d'.log| && d'.log[..|d.log|] == d.log
    ensures d.flags.vsync == captured ==> d' == d
    ensures d.flags.vsync != captured ==>
              && ReleaseThenRestore(d'.log[|d.log|..])
              && d'.log[|d.log|] == DeviceWaitIdle
              && RestoreSwapchain(d.flags.vsync) in d'.log[|d.log|..]
              && d'.res.swapchain == sc && d'.res.surface == surface
    ensures d.flags.vsync != captured ==>
              && d.res.next <= d'.res.outputImage.handle && d.res.next <= d'.res.outputImage.view
              && d.res.next <= d'.res.uiFramebuffer && d.res.next <= d'.res.rasterFramebuffer
  {
    if d.flags.vsync == captured {
      d' := d;
    } else {
      d' := ReleaseAndRestore(d, sc, surface, now);
    }
  }

  /** Everything run_frame records up to and including vk_end_frame, for
      swapchain image `imageIndex`. */
  function Recorded(d: Demo, now: int, ui: UiInput, imageIndex: nat): (d': Demo)
    requires Ready(d.res) && imageIndex < |d.res.swapchain.images|
    ensures d'.flags == ApplyUi(d.flags, ui) && d'.lastFrameTime == now && d'.res == d.res
    ensures |d.log| < |d'.log| && d'.log[..|d.log|] == d.log && d'.log[|d'.log| - 1] == EndFrame
    ensures Count(d'.log[|d.log|..], IsRelease) == 0 && Count(d'.log[|d.log|..], IsRestore) == 0
  {
    var d1 := StartFrame(d, now, ui);
    var d' := RecordFrame(d1, imageIndex);
    var a := d1.log[|d.log|..];
    var b := d'.log[|d1.log|..];
    assert d'.log[|d.log|..] == a + b;
    KeepsSwapchainAppend(a, b);
    KeepsSwapchainCounts(a + b);
    d'
  }

  /** Vk_Demo::run_frame as written: `old_vsync` is captured after
      do_imgui has already stored the checkbox into `vsync`, and nothing
      before the comparison changes `vsync`, so the comparison never holds:
      whatever the overlay did, the frame ends at vk_end_frame and the
      swapchain is never restored with the new setting. */
  method RunFrame(d: Demo, now: int, ui: UiInput, imageIndex: nat, sc: Swapchain, surface: Extent, restoreTime: int)
    returns (d': Demo)
    requires Ready(d.res) && imageIndex < |d.res.swapchain.images| && |sc.views| == |sc.images|
    ensures Ready(d'.res)
    ensures d'.flags.vsync == ui.vsync
    ensures d' == Recorded(d, now, ui, imageIndex)
    ensures Count(d'.log[|d.log|..], IsRestore) == 0
  {
    var d1 := StartFrame(d, now, ui);
    var oldVsync := d1.flags.vsync;
    var d2 := RecordFrame(d1, imageIndex);
    d' := FinishFrame(d2, oldVsync, sc, surface, restoreTime);
  }

  /** run_frame with the vsync setting captured before the overlay runs:
      a toggled checkbox causes exactly one release followed by one restore
      with the new setting, after vk_end_frame; an untouched one causes
      neither. */
  method RunFrameFixed(d: Demo, now: int, ui: UiInput, imageIndex: nat, sc: Swapchain, surface: Extent, restoreTime: int)
    returns (d': Demo)
    requires Ready(d.res) && imageIndex < |d.res.swapchain.images| && |sc.views| == |sc.images|
    ensures Ready(d'.res)
    ensures d'.flags.vsync == ui.vsync
    ensures var r := Recorded(d, now, ui, imageIndex);
            && |r.log| <= |d'.log| && d'.log[..|r.log|] == r.log
            && (ui.vsync == d.flags.vsync ==> d' == r)
            && (ui.vsync != d.flags.vsync ==>
                  && ReleaseThenRestore(d'.log[|r.log|..])
                  && RestoreSwapchain(ui.vsync) in d'.log[|r.log|..]
                  && d'.res.swapchain == sc && d'.res.surface == surface
                  && d.res.next <= d'.res.outputImage.handle && d.res.next <= d'.res.outputImage.view
                  && d.res.next <= d'.res.uiFramebuffer && d.res.next <= d'.res.rasterFramebuffer)
  {
    var oldVsync := d.flags.vsync;
    var d1 := StartFrame(d, now, ui);
    var d2 := RecordFrame(d1, imageIndex);
    assert d2 == Recorded(d, now, ui, imageIndex);
    d' := FinishFrame(d2, oldVsync, sc, surface, restoreTime);
  }
}

=== FILE: matrix.dfy ===
/** A structural 4x4 matrix over an abstract scalar type. Only reading and
    writing entries is modelled: the arithmetic of the matrix library is not
    part of this model, so operations such as rotations are supplied from
    outside as function values. Rows and columns are indexed as in
    `m[row][column]`. */
module Matrix {

  type Idx = i: int | 0 <= i < 4

  datatype Row<S> = Row(c0: S, c1: S, c2: S, c3: S)

  datatype Mat4<S> = Mat4(r0: Row<S>, r1: Row<S>, r2: Row<S>, r3: Row<S>)

  function At<S>(r: Row<S>, j: Idx): S
  {
    if j == 0 then r.c0 else if j == 1 then r.c1 else if j == 2 then r.c2 else r.c3
  }

  function RowOf<S>(m: Mat4<S>, i: Idx): Row<S>
  {
    if i == 0 then m.r0 else if i == 1 then m.r1 else if i == 2 then m.r2 else m.r3
  }

  /** `m[i][j]` */
  function Get<S>(m: Mat4<S>, i: Idx, j: Idx): S
  {
    At(RowOf(m, i), j)
  }

  /** `m[i][j] = v`: entry (i, j) becomes v and every other entry is kept. */
  function Set<S>(m: Mat4<S>, i: Idx, j: Idx, v: S): (r: Mat4<S>)
    ensures Get(r, i, j) == v
    ensures forall k: Idx, l: Idx :: (k != i || l != j) ==> Get(r, k, l) == Get(m, k, l)
  {
    var row := RowOf(m, i);
    var row' :=
      if j == 0 then row.(c0 := v)
      else if j == 1 then row.(c1 := v)
      else if j == 2 then row.(c2 := v)
      else row.(c3 := v);
    if i == 0 then m.(r0 := row')
    else if i == 1 then m.(r1 := row')
    else if i == 2 then m.(r2 := row')
    else m.(r3 := row')
  }

  /** Two matrices with the same entries are the same matrix. */
  lemma Extensional<S>(a: Mat4<S>, b: Mat4<S>)
    requires forall i: Idx, j: Idx :: Get(a, i, j) == Get(b, i, j)
    ensures a == b
  {
    assert Get(a, 0, 0) == Get(b, 0, 0) && Get(a, 0, 1) == Get(b, 0, 1);
    assert Get(a, 0, 2) == Get(b, 0, 2) && Get(a, 0, 3) == Get(b, 0, 3);
    assert Get(a, 1, 0) == Get(b, 1, 0) && Get(a, 1, 1) == Get(b, 1, 1);
    assert Get(a, 1, 2) == Get(b, 1, 2) && Get(a, 1, 3) == Get(b, 1, 3);
    assert Get(a, 2, 0) == Get(b, 2, 0) && Get(a, 2, 1) == Get(b, 2, 1);
    assert Get(a, 2, 2) == Get(b, 2, 2) && Get(a, 2, 3) == Get(b, 2, 3);
    assert Get(a, 3, 0) == Get(b, 3, 0) && Get(a, 3, 1) == Get(b, 3, 1);
    assert Get(a, 3, 2) == Get(b, 3, 2) && Get(a, 3, 3) == Get(b, 3, 3);
  }

  /** Writing the same entry twice keeps only the second write. */
  lemma SetOverwrite<S>(m: Mat4<S>, i: Idx, j: Idx, a: S, b: S)
    ensures Set(Set(m, i, j, a), i, j, b) == Set(m, i, j, b)
  {
    Extensional(Set(Set(m, i, j, a), i, j, b), Set(m, i, j, b));
  }

  /** Matrix4x4::identity */
  function Identity<S>(zero: S, one: S): (r: Mat4<S>)
    ensures forall i: Idx, j: Idx :: Get(r, i, j) == if i == j then one else zero
  {
    Mat4(Row(one, zero, zero, zero), Row(zero, one, zero, zero),
         Row(zero, zero, one, zero), Row(zero, zero, zero, one))
  }
}

=== FILE: mesh.dfy ===
/** src/Mesh.h and src/Mesh.cpp: the per-object `Transform`, the
    current/previous matrix pair `TAATransform`, and `GPU_MESH`, a vertex
    buffer and an index buffer with their element counts. */
module Mesh {
  import opened Vk
  import opened Matrix

  /** The scalar constants the defaults need (Vector3::ZERO and
      Vector3::ONE are built from them). */
  datatype Scalars<S> = Scalars(zero: S, one: S)

  datatype Vec3<S> = Vec3(x: S, y: S, z: S)

  /** Position, rotation angles in degrees, and per-axis scale. */
  datatype Transform<S> = Transform(position: Vec3<S>, pitch: S, yaw: S, roll: S, scale: Vec3<S>)

  /** `Transform()`: zero position and angles, unit scale. */
  function DefaultTransform<S>(num: Scalars<S>): (t: Transform<S>)
    ensures t.position == Vec3(num.zero, num.zero, num.zero)
    ensures t.pitch == num.zero && t.yaw == num.zero && t.roll == num.zero
    ensures t.scale == Vec3(num.one, num.one, num.one)
  {
    var zero := Vec3(num.zero, num.zero, num.zero);
    Transform(zero, num.zero, num.zero, num.zero, Vec3(num.one, num.one, num.one))
  }

  /** `dst = src`: the five fields are copied one by one and the assigned-to
      object is returned. Nothing of `dst` survives. */
  function Assign<S>(dst: Transform<S>, src: Transform<S>): (r: Transform<S>)
    ensures r == src
  {
    dst.(position := src.position).(pitch := src.pitch).(yaw := src.yaw).(roll := src.roll).(scale := src.scale)
  }

  /** The copy constructor, which default-initialises and then assigns. */
  function CopyOf<S>(num: Scalars<S>, src: Transform<S>): (r: Transform<S>)
    ensures r == src
  {
    Assign(DefaultTransform(num), src)
  }

  /** The current and previous frame's matrix; it has no behaviour of its own. */
  datatype TAATransform<S> = TAATransform(cur: Mat4<S>, prev: Mat4<S>)

  /** GPU_MESH. The buffers are opaque handles (Vk_Buffer is not part of this
      model); the counts are uint32_t. */
  datatype GpuMesh = GpuMesh(vertexBuffer: Handle, indexBuffer: Handle, vertexCount: u32, indexCount: u32)

  /** A mesh with nothing to draw. */
  predicate Empty(m: GpuMesh) { m.vertexCount == 0 && m.indexCount == 0 }

  /** A default-constructed GPU_MESH: null buffers and zero counts. */
  function DefaultGpuMesh(): (m: GpuMesh)
    ensures Empty(m)
    ensures m.vertexBuffer == Null && m.indexBuffer == Null
  {
    GpuMesh(Null, Null, 0, 0)
  }

  /** GPU_MESH::destroy: destroys the vertex buffer, then the index buffer,
      then zeroes both counts. The buffers' own state after Vk_Buffer::destroy
      is not modelled; the two destroy calls are logged in order. */
  function DestroyGpuMesh(m: GpuMesh): (r: (GpuMesh, seq<Call>))
    ensures Empty(r.0)
    ensures r.1 == [DestroyBuffer(m.vertexBuffer), DestroyBuffer(m.indexBuffer)]
    ensures r.0.vertexBuffer == m.vertexBuffer && r.0.indexBuffer == m.indexBuffer
  {
    (m.(vertexCount := 0, indexCount := 0), [DestroyBuffer(m.vertexBuffer), DestroyBuffer(m.indexBuffer)])
  }

  /** A second destroy leaves the mesh as the first one did (the counts stay
      zero) and destroys the same two buffers again: GPU_MESH has no guard. */
  lemma DestroyGpuMeshTwice(m: GpuMesh)
    ensures DestroyGpuMesh(DestroyGpuMesh(m).0).0 == DestroyGpuMesh(m).0
    ensures Empty(DestroyGpuMesh(DestroyGpuMesh(m).0).0)
    ensures DestroyGpuMesh(DestroyGpuMesh(m).0).1 == DestroyGpuMesh(m).1
  {
  }
}

=== FILE: objects.dfy ===
/** src/BaseObject.h, src/BaseObject.cpp, src/GameObject.h and
    src/GameObject.cpp: an object owning an ordered vector of components,
    its once-only teardown, its destructor guard, and the weak handle through
    which a GameObject exposes its renderable.

    Shared ownership is abstracted as a heap of component cells: a cell
    lives while some strong owner holds its id, either the object's
    `components` vector or an owner elsewhere (`held`, for instance a
    shared_ptr a caller obtained from GetRenderable). A weak handle is just
    an id; it has expired once the cell is gone. */
module Objects {
  import opened Vk
  import opened Mesh
  import opened Components

  type Id = nat

  datatype Heap<S> = Heap(cells: map<Id, Component<S>>, held: set<Id>, next: Id)

  /** BaseObject: the components vector and the private `isDestroyed`. */
  datatype BaseObject = BaseObject(components: seq<Id>, destroyed: bool)

  /** GameObject: a BaseObject plus the weak handles captured by the
      constructor (the transform handle is the member GameObject.cpp
      assigns). */
  datatype GameObject = GameObject(base: BaseObject, renderable: Id, transform: Id)

  /** One virtual `Destroy` call made on a component by BaseObject::Destroy,
      with the value of the owner's flag at the time of the call. */
  datatype DestroyCall = DestroyCall(id: Id, kind: Kind, ownerDestroyed: bool)

  /** Every component the object holds is alive. */
  predicate Live<S>(o: BaseObject, h: Heap<S>)
  {
    forall k :: 0 <= k < |o.components| ==> o.components[k] in h.cells
  }

  /** The heap as seen from one object: its components are alive, every
      other live cell has a strong owner elsewhere, and the id counter is
      fresh. */
  predicate Owns<S>(o: BaseObject, h: Heap<S>)
  {
    && Live(o, h)
    && (forall id :: id in h.cells ==> id in o.components || id in h.held)
    && (forall id :: id in h.cells ==> id < h.next)
  }

  /** The loop of BaseObject::Destroy: each component in vector order gets
      its Destroy call. A component appearing twice is torn down twice,
      which changes nothing the second time. */
  function DestroyEach<S>(ids: seq<Id>, cells: map<Id, Component<S>>, flag: bool)
    : (r: (map<Id, Component<S>>, seq<DestroyCall>))
    requires forall k :: 0 <= k < |ids| ==> ids[k] in cells
    ensures r.0.Keys == cells.Keys
    ensures forall id :: id in cells ==> r.0[id] == if id in ids then TearDown(cells[id]).0 else cells[id]
    ensures |r.1| == |ids|
    ensures forall k :: 0 <= k < |ids| ==> r.1[k] == DestroyCall(ids[k], KindOf(cells[ids[k]]), flag)
    decreases |ids|
  {
    if ids == [] then (cells, [])
    else
      var id := ids[0];
      var c := cells[id];
      TearDownIdempotent(c);
      var rest := DestroyEach(ids[1..], cells[id := TearDown(c).0], flag);
      (rest.0, [DestroyCall(id, KindOf(c), flag)] + rest.1)
  }

  /** BaseObject::Destroy. On an empty vector it returns at once: nothing
      changes and the flag is not set. Otherwise every component gets one
      Destroy call in vector order while the flag still has its old value,
      then the vector is cleared (components with no other strong owner
      die) and only then the flag is set. */
  function ObjectDestroy<S>(o: BaseObject, h: Heap<S>): (r: (BaseObject, Heap<S>, seq<DestroyCall>))
    requires Live(o, h)
    ensures o.components == [] ==> r == (o, h, [])
    ensures r.0.components == []
    ensures r.0.destroyed <==> o.destroyed || o.components != []
    ensures |r.2| == |o.components|
    ensures forall k :: 0 <= k < |o.components| ==>
              r.2[k] == DestroyCall(o.components[k], KindOf(h.cells[o.components[k]]), o.destroyed)
    ensures r.1.held == h.held && r.1.next == h.next
    ensures forall id :: id in r.1.cells <==> id in h.cells && (id !in o.components || id in h.held)
    ensures forall id :: id in r.1.cells ==>
              r.1.cells[id] == if id in o.components then TearDown(h.cells[id]).0 else h.cells[id]
  {
    if o.components == [] then (o, h, [])
    else
      var (cells, calls) := DestroyEach(o.components, h.cells, o.destroyed);
      var kept := map id | id in cells && (id !in o.components || id in h.held) :: cells[id];
      (BaseObject([], true), h.(cells := kept), calls)
  }

  /** A second Destroy makes no component call and changes nothing. */
  lemma ObjectDestroyIdempotent<S>(o: BaseObject, h: Heap<S>)
    requires Live(o, h)
    ensures var r := ObjectDestroy(o, h);
            Live(r.0, r.1) && ObjectDestroy(r.0, r.1) == (r.0, r.1, [])
  {
  }

  /** Destroy keeps the ownership picture consistent. */
  lemma ObjectDestroyOwns<S>(o: BaseObject, h: Heap<S>)
    requires Owns(o, h)
    ensures var r := ObjectDestroy(o, h); Owns(r.0, r.1)
  {
  }

  /** DEFAULT_DESTRUCTOR_OBJECT(CLASS_NAME): if the object is already
      destroyed nothing happens, otherwise CLASS_NAME::Destroy runs once. */
  function DestructorStep<S>(o: BaseObject, h: Heap<S>): (r: (BaseObject, Heap<S>, seq<DestroyCall>))
    requires Live(o, h)
    ensures o.destroyed ==> r == (o, h, [])
    ensures !o.destroyed ==> r == ObjectDestroy(o, h)
  {
    if o.destroyed then (o, h, []) else ObjectDestroy(o, h)
  }

  /** Destruction of the object's own `components` vector, after the
      destructor bodies: each id loses this strong owner; cells with no
      other owner die (their component destructors change nothing, see
      Components.Destructor). */
  function DropComponents<S>(o: BaseObject, h: Heap<S>): (h': Heap<S>)
    ensures h'.held == h.held && h'.next == h.next
    ensures forall id :: id in h'.cells <==> id in h.cells && (id !in o.components || id in h.held)
    ensures forall id :: id in h'.cells ==> h'.cells[id] == h.cells[id]
  {
    h.(cells := map id | id in h.cells && (id !in o.components || id in h.held) :: h.cells[id])
  }

  /** Deleting a GameObject: ~GameObject (the macro, calling
      GameObject::Destroy, which is BaseObject::Destroy), then ~BaseObject
      (the macro again), then the vector's destruction. A not yet destroyed
      object has each component torn down exactly once, in vector order; an
      already destroyed one has none. */
  function DeleteGameObject<S>(g: GameObject, h: Heap<S>): (r: (Heap<S>, seq<DestroyCall>))
    requires Live(g.base, h)
    ensures g.base.destroyed ==> r.1 == []
    ensures !g.base.destroyed ==> |r.1| == |g.base.components|
    ensures !g.base.destroyed ==> forall k :: 0 <= k < |g.base.components| ==>
              r.1[k] == DestroyCall(g.base.components[k], KindOf(h.cells[g.base.components[k]]), false)
    ensures r.0.held == h.held && r.0.next == h.next
    ensures forall id :: id in r.0.cells <==> id in h.cells && (id !in g.base.components || id in h.held)
    ensures forall id :: id in r.0.cells ==>
              r.0.cells[id] == if id in g.base.components && !g.base.destroyed then TearDown(h.cells[id]).0 else h.cells[id]
  {
    var (o1, h1, c1) := DestructorStep(g.base, h);
    var (o2, h2, c2) := DestructorStep(o1, h1);
    (DropComponents(o2, h2), c1 + c2)
  }

  /** GameObject(): a RenderableComponent appended first and a
      TransformComponent second, both fresh; the weak handles capture the
      ids just appended; the flag is clear. */
  function NewGameObject<S>(num: Scalars<S>, h: Heap<S>): (r: (GameObject, Heap<S>))
    requires forall id :: id in h.cells ==> id < h.next
    ensures r.0.base.components == [h.next, h.next + 1]
    ensures r.0.renderable == r.0.base.components[0] && r.0.transform == r.0.base.components[1]
    ensures !r.0.base.destroyed
    ensures r.1.cells == h.cells[h.next := NewComponent(RenderableBody(NewRenderable()))][h.next + 1 := NewTransform(num)]
    ensures h.next !in h.cells && h.next + 1 !in h.cells
    ensures r.1.held == h.held && r.1.next == h.next + 2
  {
    var rid := h.next;
    var tid := h.next + 1;
    var cells := h.cells[rid := NewComponent(RenderableBody(NewRenderable()))][tid := NewTransform(num)];
    (GameObject(BaseObject([rid, tid], false), rid, tid), Heap(cells, h.held, h.next + 2))
  }

  /** GameObject::GetRenderable: null once the weak handle has expired,
      otherwise the component it refers to. A pure query. While the object
      still holds its renderable the handle cannot have expired. */
  function GetRenderable<S>(g: GameObject, h: Heap<S>): (r: Option<Id>)
    ensures r.Some? ==> r.value == g.renderable && r.value in h.cells
    ensures g.renderable !in h.cells ==> r == None
    ensures Live(g.base, h) && g.renderable in g.base.components ==> r == Some(g.renderable)
  {
    if g.renderable !in h.cells then None else Some(g.renderable)
  }

  /** When every live cell has an owner elsewhere and the id counter is
      fresh, a new object is owned consistently, holds exactly a renderable
      followed by a transform, and GetRenderable yields the first of them. */
  lemma NewGameObjectShape<S>(num: Scalars<S>, h: Heap<S>)
    requires forall id :: id in h.cells ==> id in h.held && id < h.next
    ensures var (g, h') := NewGameObject(num, h);
            && Owns(g.base, h')
            && |g.base.components| == 2
            && KindOf(h'.cells[g.base.components[0]]) == RenderableKind
            && KindOf(h'.cells[g.base.components[1]]) == TransformKind
            && GetRenderable(g, h') == Some(g.base.components[0])
  {
  }

  /** After Destroy clears the vector, GetRenderable is null unless another
      strong owner keeps the renderable alive; in that case it yields the
      torn-down renderable, which owns no device resource any more. */
  lemma GetRenderableAfterDestroy<S>(g: GameObject, h: Heap<S>)
    requires Owns(g.base, h) && g.renderable in g.base.components
    requires KindOf(h.cells[g.renderable]) == RenderableKind
    ensures var (o', h', _) := ObjectDestroy(g.base, h);
            var r := GetRenderable(g.(base := o'), h');
            && (g.renderable !in h.held ==> r == None)
            && (g.renderable in h.held ==>
                  r == Some(g.renderable) && Owned(h'.cells[g.renderable].body.renderable) == {})
  {
  }

  /** The whole life of a GameObject with no outside owner: construction,
      Destroy (two calls, renderable then transform, both while the flag is
      clear), after which the flag is set, GetRenderable is null and the
      object's deletion calls nothing more. */
  lemma GameObjectLifecycle<S>(num: Scalars<S>, h: Heap<S>)
    requires forall id :: id in h.cells ==> id < h.next
    requires h.next !in h.held
    ensures var (g, h1) := NewGameObject(num, h);
            var (o2, h2, calls) := ObjectDestroy(g.base, h1);
            var g2 := g.(base := o2);
            && calls == [DestroyCall(g.renderable, RenderableKind, false), DestroyCall(g.transform, TransformKind, false)]
            && o2.destroyed
            && GetRenderable(g2, h2) == None
            && DeleteGameObject(g2, h2).1 == []
  {
  }
}

=== FILE: transform_component.dfy ===
/** src/TransformComponent.cpp: `ProduceModelTransform`, the model matrix
    of one object.

    The scalar type is abstract. Multiplication, degree-to-radian
    conversion and the three axis rotations of the matrix library are
    supplied as function values, so the model says which entries are
    written, in which order the operations are applied and which inputs
    reach the result, but nothing about the numbers. */
module TransformComponent {
  import opened Matrix
  import opened Mesh

  /** The matrix-library operations `ProduceModelTransform` calls, over the
      scalar constants of the transform. */
  datatype MathLib<!S> = MathLib(
    num: Scalars<S>,
    mul: (S, S) -> S,
    radians: S -> S,
    rotateX: (Mat4<S>, S) -> Mat4<S>,
    rotateY: (Mat4<S>, S) -> Mat4<S>,
    rotateZ: (Mat4<S>, S) -> Mat4<S>)

  /** The scale matrix: identity with the diagonal multiplied by the scale
      (`one * scale.x`, ...), w kept at one. */
  function ScaleMatrix<S>(lib: MathLib<S>, s: Vec3<S>): Mat4<S>
  {
    var z := lib.num.zero;
    Mat4(Row(lib.mul(lib.num.one, s.x), z, z, z),
         Row(z, lib.mul(lib.num.one, s.y), z, z),
         Row(z, z, lib.mul(lib.num.one, s.z), z),
         Row(z, z, z, lib.num.one))
  }

  /** Rotation about X by pitch, then about Y by yaw, then about Z by roll,
      each angle converted to radians first, applied to `m`. */
  function RotateXYZ<S>(lib: MathLib<S>, m: Mat4<S>, t: Transform<S>): Mat4<S>
  {
    lib.rotateZ(lib.rotateY(lib.rotateX(m, lib.radians(t.pitch)), lib.radians(t.yaw)), lib.radians(t.roll))
  }

  /** Scale, then the three rotations in their fixed order. */
  function Rotated<S>(lib: MathLib<S>, t: Transform<S>): Mat4<S>
  {
    RotateXYZ(lib, ScaleMatrix(lib, t.scale), t)
  }

  /** The translation column (entries [0][3], [1][3], [2][3]). */
  function Translation<S>(m: Mat4<S>): Vec3<S>
  {
    Vec3(Get(m, 0, 3), Get(m, 1, 3), Get(m, 2, 3))
  }

  /** TransformComponent::ProduceModelTransform as written: the three
      position components are all stored into entry [0][3], so only
      position.z remains there and the other entries are what scaling and
      rotation produced. */
  function ProduceModelTransform<S>(lib: MathLib<S>, t: Transform<S>): (m: Mat4<S>)
    ensures Get(m, 0, 3) == t.position.z
    ensures forall i: Idx, j: Idx :: (i != 0 || j != 3) ==> Get(m, i, j) == Get(Rotated(lib, t), i, j)
  {
    var id := Identity(lib.num.zero, lib.num.one);
    var m0 := Set(id, 0, 0, lib.mul(Get(id, 0, 0), t.scale.x));
    var m1 := Set(m0, 1, 1, lib.mul(Get(m0, 1, 1), t.scale.y));
    var m2 := Set(m1, 2, 2, lib.mul(Get(m1, 2, 2), t.scale.z));
    Extensional(m2, ScaleMatrix(lib, t.scale));
    var m3 := lib.rotateX(m2, lib.radians(t.pitch));
    var m4 := lib.rotateY(m3, lib.radians(t.yaw));
    var m5 := lib.rotateZ(m4, lib.radians(t.roll));
    var m6 := Set(m5, 0, 3, t.position.x);
    var m7 := Set(m6, 0, 3, t.position.y);
    Set(m7, 0, 3, t.position.z)
  }

  /** position.x and position.y do not influence the result: any two
      transforms that agree on everything but those two fields give the same
      matrix. */
  lemma PositionXYIgnored<S>(lib: MathLib<S>, t: Transform<S>, x: S, y: S)
    ensures ProduceModelTransform(lib, t.(position := Vec3(x, y, t.position.z))) == ProduceModelTransform(lib, t)
  {
    var t' := t.(position := Vec3(x, y, t.position.z));
    Extensional(ProduceModelTransform(lib, t'), ProduceModelTransform(lib, t));
  }

  /** Entries [1][3] and [2][3] are exactly what the rotation sequence left
      there: the translation read back from the result is position.z followed
      by the rotated matrix's own entries. */
  lemma TranslationAsWritten<S>(lib: MathLib<S>, t: Transform<S>)
    ensures Translation(ProduceModelTransform(lib, t))
         == Vec3(t.position.z, Get(Rotated(lib, t), 1, 3), Get(Rotated(lib, t), 2, 3))
  {
  }

  /** The translation cannot be read back from the matrix as written:
      whenever position.x differs from position.z (position (1, 0, 2), say)
      the matrix's translation column is not the position. */
  lemma AsWrittenLosesTranslation<S>(lib: MathLib<S>, t: Transform<S>)
    requires t.position.x != t.position.z
    ensures Translation(ProduceModelTransform(lib, t)) != t.position
  {
  }

  /** The model matrix as evidently intended: scale, rotate X, Y, Z, then
      store position.x, .y, .z into entries [0][3], [1][3], [2][3]. */
  function ProduceModelTransformFixed<S>(lib: MathLib<S>, t: Transform<S>): (m: Mat4<S>)
    ensures Translation(m) == t.position
    ensures forall i: Idx, j: Idx :: (j != 3 || i == 3) ==> Get(m, i, j) == Get(Rotated(lib, t), i, j)
  {
    var r := Rotated(lib, t);
    Set(Set(Set(r, 0, 3, t.position.x), 1, 3, t.position.y), 2, 3, t.position.z)
  }

  /** With the corrected layout the position is recoverable: two transforms
      that agree except for position give the same matrix exactly when the
      positions are equal. */
  lemma FixedSeparatesPositions<S>(lib: MathLib<S>, t: Transform<S>, p: Vec3<S>)
    ensures ProduceModelTransformFixed(lib, t.(position := p)) == ProduceModelTransformFixed(lib, t)
        <==> p == t.position
  {
    var a := ProduceModelTransformFixed(lib, t.(position := p));
    var b := ProduceModelTransformFixed(lib, t);
    if p == t.position {
      assert t.(position := p) == t;
    } else {
      assert Translation(a) != Translation(b);
    }
  }
}

=== FILE: vk.dfy ===
/** Shared vocabulary of the renderer model: opaque device handles, 32-bit
    unsigned values, the image layouts, access masks and pipeline stages the
    core uses, and the log of device calls that stands in for the Vulkan API.

    A handle is an opaque natural number; 0 plays the role of VK_NULL_HANDLE.
    Recording a command into a command buffer, or calling a device function,
    appends one entry to a log; nothing is executed. */
module Vk {

  datatype Option<+T> = None | Some(value: T)

  type Handle = nat

  const Null: Handle := 0

  const U32Limit: int := 0x1_0000_0000

  /** uint32_t */
  type u32 = x: int | 0 <= x < 0x1_0000_0000

  /** Reduction of a mathematical integer to uint32_t, as C++ unsigned
      arithmetic wraps. */
  function Wrap32(x: nat): (r: u32)
    ensures x < U32Limit ==> r == x
    ensures (r - x) % U32Limit == 0
  {
    x % U32Limit
  }

  datatype Extent = Extent(width: u32, height: u32)

  datatype Layout = Undefined | General | ShaderReadOnly | ColorAttachment | PresentSrc

  datatype Access = ShaderRead | ShaderWrite | ColorAttachmentWrite | MemoryRead

  datatype Stage = RayTracing | ColorAttachmentOutput | ComputeShader

  datatype IndexType = Uint16 | Uint32

  datatype BindPoint = Graphics | Compute | RayTracingBindPoint

  datatype DescriptorType = Sampler | SampledImage | StorageImage

  /** VkDescriptorImageInfo */
  datatype ImageInfo = ImageInfo(sampler: Handle, view: Handle, layout: Layout)

  /** What one binding of a descriptor set holds after a write. */
  datatype Binding = Binding(kind: DescriptorType, info: ImageInfo)

  /** VkWriteDescriptorSet with a single image descriptor. */
  datatype DescriptorWrite = DescriptorWrite(dstSet: Handle, binding: nat, count: nat, kind: DescriptorType, info: ImageInfo)

  /** The synchronisation part of a VkImageMemoryBarrier together with the
      stage masks passed to vkCmdPipelineBarrier. */
  datatype Barrier = Barrier(
    srcStage: Stage, dstStage: Stage,
    srcAccess: set<Access>, dstAccess: set<Access>,
    oldLayout: Layout, newLayout: Layout)

  /** The state an image is left in by its last producer: layout, the
      accesses that wrote it and the stage they ran in. */
  datatype ImageState = ImageState(layout: Layout, access: set<Access>, stage: Stage)

  function SourceOf(b: Barrier): ImageState { ImageState(b.oldLayout, b.srcAccess, b.srcStage) }

  function TargetOf(b: Barrier): ImageState { ImageState(b.newLayout, b.dstAccess, b.dstStage) }

  /** Commands recorded into a command buffer. */
  datatype Command =
    | BindVertexBuffers(firstBinding: nat, buffers: seq<Handle>, offsets: seq<nat>)
    | BindIndexBuffer(buffer: Handle, offset: nat, indexType: IndexType)
    | DrawIndexed(indexCount: u32, instanceCount: nat, firstIndex: nat, vertexOffset: int, firstInstance: nat)
    | PushDescriptorSet(bindPoint: BindPoint, layout: Handle, setIndex: nat, writes: seq<DescriptorWrite>)
      /** the whole rasterised or ray-traced scene pass, recorded as one entry */
    | DrawScene(raytraced: bool)
    | BeginRenderPass(pass: Handle, framebuffer: Handle, area: Extent)
      /** the overlay's own draw data, recorded as one entry */
    | DrawUi
    | EndRenderPass
    | PipelineBarrier(image: Handle, barrier: Barrier)
      /** vk_record_image_layout_transition; it chooses the stage masks itself */
    | LayoutTransition(image: Handle, srcAccess: set<Access>, dstAccess: set<Access>, oldLayout: Layout, newLayout: Layout)
    | PushConstants(layout: Handle, width: u32, height: u32)
    | BindDescriptorSet(bindPoint: BindPoint, layout: Handle, descriptorSet: Handle)
    | BindPipeline(bindPoint: BindPoint, pipeline: Handle)
    | Dispatch(x: u32, y: u32, z: u32)

  /** One entry of the device-call log. */
  datatype Call =
    | Record(cmd: Command)
    | DestroyBuffer(buffer: Handle)
    | DestroyImage(image: Handle)
    | DestroyFramebuffer(framebuffer: Handle)
    | DestroyRasterFramebuffer(framebuffer: Handle)
    | CreateImage(image: Handle, view: Handle, extent: Extent)
      /** a layout transition recorded and submitted at once (vk_record_and_run_commands) */
    | TransitionNow(image: Handle, dstAccess: set<Access>, oldLayout: Layout, newLayout: Layout)
    | CreateFramebuffer(framebuffer: Handle, pass: Handle, view: Handle, extent: Extent)
    | CreateRasterFramebuffer(framebuffer: Handle, view: Handle)
    | UpdateRtOutputDescriptor(view: Handle)
    | AllocateDescriptorSet(descriptorSet: Handle)
    | WriteDescriptors(writes: seq<DescriptorWrite>)
    | DestroySetLayout(layout: Handle)
    | DestroyPipelineLayout(layout: Handle)
    | DestroyPipeline(pipeline: Handle)
    | DestroySampler(sampler: Handle)
    | DeviceWaitIdle
    | ReleaseSwapchain
    | RestoreSwapchain(vsync: bool)
    | UpdateScene(simTime: real)
    | UpdateRtInstance
    | BeginFrame
    | EndFrame

  /** Number of entries of `log` satisfying `p`. */
  function Count<T>(log: seq<T>, p: T -> bool): (n: nat)
    ensures n <= |log|
  {
    if log == [] then 0 else (if p(log[0]) then 1 else 0) + Count(log[1..], p)
  }

  lemma {:induction false} CountAppend<T>(a: seq<T>, b: seq<T>, p: T -> bool)
    ensures Count(a + b, p) == Count(a, p) + Count(b, p)
  {
    if a == [] {
      assert a + b == b;
    } else {
      assert (a + b)[1..] == a[1..] + b;
      CountAppend(a[1..], b, p);
    }
  }

  /** A log counts zero exactly when none of its entries satisfies `p`. */
  lemma {:induction false} CountZero<T>(log: seq<T>, p: T -> bool)
    ensures Count(log, p) == 0 <==> forall i :: 0 <= i < |log| ==> !p(log[i])
  {
    if log != [] {
      CountZero(log[1..], p);
      assert forall i :: 1 <= i < |log| ==> log[1..][i - 1] == log[i];
    }
  }

  /** A log counts one when exactly one of its entries satisfies `p`. */
  lemma CountSingle<T>(log: seq<T>, i: nat, p: T -> bool)
    requires i < |log| && p(log[i])
    requires forall j :: 0 <= j < |log| && j != i ==> !p(log[j])
    ensures Count(log, p) == 1
  {
    var a, b := log[..i], log[i + 1..];
    assert log == a + [log[i]] + b;
    CountAppend(a + [log[i]], b, p);
    CountAppend(a, [log[i]], p);
    assert forall j :: 0 <= j < |a| ==> a[j] == log[j];
    assert forall j :: 0 <= j < |b| ==> b[j] == log[i + 1 + j];
    CountZero(a, p);
    CountZero(b, p);
    assert Count([log[i]], p) == 1;
  }
}
